=== FILE: README.md ===
# USC IX management platform — a Dafny model of its decisions

The platform is a React front end on a Supabase database for a student
organisation with a four-level hierarchy: president, department heads,
group leaders and members. The pages make several kinds of decision:

- who may see or do what;
- how a proposed role change is validated;
- how a member may change their group, at most once;
- how lists are filtered and ordered.

The data-access layer (`src/db/api.ts`) turns requests into row updates and
appends to an audit log.

This project restates those decisions as pure Dafny functions over immutable
records, and proves what they promise. The database is an abstract store: one
sequence each of profiles, role-change log entries and scores. A request that
can fail takes an explicit fault flag. The signed-in user, the current time
and the ids the database generates are parameters. Each module follows one
source file:

| module | file | what it holds |
|---|---|---|
| `Types` | `types.dfy` | the records of `src/types/types.ts`, plus the empty-string/null conventions of the forms |
| `Text` | `text.dfy` | ASCII case mapping, substring search and decimal printing of a timestamp |
| `Ordering` | `ordering.dfy` | `order(created_at desc)` as a stable sort, `limit`/`range` as take/page, `Array.filter` as `Filter`, and order-preserving subsequences |
| `Api` | `api.dfy` | `assignRole`/`removeRole` as a store transition with the audit append, the profile, material, leaderboard and log queries, the score ledger, and `updateProfile` |
| `RoleManagement` | `role_management.dfy` | the validation chain of `handleAssignRole`, the president-free snapshot, and the hierarchy invariant |
| `ProfilePage` | `profile_page.dfy` | the one-time group-change guard and the update record, as written and as evidently intended |
| `MembersPage` | `members_page.dfy` | the chained search, group and role filters, and the badge |
| `StudyMaterials` | `study_materials.dfy` | the PDF check, the upload request with its sanitised storage name, and delete permission |
| `LeaderboardPage` | `leaderboard_page.dfy` | the add-score request and the rank icons |
| `Access` | `access.dfy` | `canUpload`/`canEditScores` and the department options that both pages share |
| `MainLayout` | `main_layout.dfy` | avatar initials, badge precedence and the navigation list |
| `AuthContext` | `auth_context.dfy` | role predicates, the username-to-address mapping, and clearing the state |
| `DashboardPage` | `dashboard_page.dfy` | the four figures and the role-specific view |

The central theorem is `RoleManagement.AcceptedAssignmentKeepsLeadershipUnique`.
Suppose the store has at most one head per department and at most one leader
per group. Suppose also that:

- profile ids are unique;
- no profile's group id is the empty string;
- the selected member is a row of the store;
- the page's snapshot shows every current head and leader.

Then an assignment that passes the page's checks keeps the store that way,
fault or no fault. The empty-string hypothesis carries weight: the page tests
the member's group for truthiness before its leader check, so a group id of
`""` skips that check.

## Model

| member | source | states |
|---|---|---|
| Types.ParseRole | src/types/types.ts:3 | reading a role back from a string yields a role whose database spelling is that string, or no role when no role is spelled so |
| Types.ParseRoleName | src/types/types.ts:3 | every role's database spelling reads back as that role |
| Types.NullIfEmpty | src/pages/ProfilePage.tsx:65-67 | a form string sent as `s or null` is null exactly for the empty string and the string itself otherwise |
| Types.EmptyIfNull | src/pages/ProfilePage.tsx:36-39 | a column loaded as `x or ''` turns null into the empty string and keeps any present string |
| Types.FormFieldRoundTrip | src/pages/ProfilePage.tsx:36-39 | loading a nullable column into a form field and sending it back restores it, except a stored empty string; a form string survives the trip to the database and back |
| Text.Lower | src/pages/MembersPage.tsx:58-59 | `toLowerCase` keeps the length, maps each ASCII capital to its small letter and leaves every other character alone |
| Text.LowerIdempotent | src/pages/MembersPage.tsx:58-59 | lower-casing an already lower-cased string changes nothing |
| Text.Upper | src/components/layouts/MainLayout.tsx:46 | `toUpperCase` keeps the length, maps each ASCII small letter to its capital and leaves every other character alone |
| Text.ContainsIffOccurs | src/pages/MembersPage.tsx:58-59 | `includes` holds exactly when the needle occurs at some position of the haystack |
| Text.ContainsEmpty | src/pages/MembersPage.tsx:58-59 | every string includes the empty string |
| Text.Decimal | src/pages/StudyMaterialsPage.tsx:77-78 | the timestamp printed in a file name is a non-empty run of decimal digits |
| Text.DecimalRoundTrip | src/pages/StudyMaterialsPage.tsx:77-78 | the printed timestamp reads back as the same number, so distinct timestamps give distinct prefixes |
| Ordering.SortDesc | src/db/api.ts:94 | `order('created_at', { ascending: false })` returns the same rows, newest first |
| Ordering.InsertDescSorted | src/db/api.ts:94 | inserting a row into a newest-first list keeps it newest first |
| Ordering.SortDescOfSorted | src/db/api.ts:94 | ordering rows that are already newest first leaves them as they are |
| Ordering.Page | src/db/api.ts:95 | `range(offset, offset + limit - 1)` returns at most `limit` rows, those from position `offset` on, and none past the end |
| Ordering.TakeKeepsLargest | src/db/api.ts:414-415 | `limit` on a newest-first list keeps the newest rows: every row left out is no newer than any row kept |
| Ordering.PageWindow | src/db/api.ts:94-95 | `range` on a newest-first list splits it into the `min(offset, n)` rows before the page, none older than a row on it, the page, and the rows after, none newer |
| Ordering.FilterMembership | src/pages/MembersPage.tsx:57-71 | `Array.filter` keeps exactly the elements passing the test |
| Ordering.FilterIsSubsequence | src/pages/MembersPage.tsx:57-71 | a filtered list is an order-preserving subsequence of its input |
| Ordering.SubsequenceTrans | src/pages/MembersPage.tsx:52-73 | chaining order-preserving selections preserves order |
| Ordering.FilterFilter | src/pages/MembersPage.tsx:52-73 | filtering twice is filtering once by the conjunction of the tests |
| Api.FindProfile | src/db/api.ts:360-365 | `eq('id', …).maybeSingle()` finds a row with that id exactly when one exists, and it is the first such row |
| Api.FindUnique | src/db/api.ts:360-365 | with ids unique, the lookup by a row's id returns that row |
| Api.SetRoleRows | src/db/api.ts:368-376 | the profile update gives the rows with the id the new role and department, and leaves every other row and column alone |
| Api.AssignRole | src/db/api.ts:357-394 | scores are untouched. A failed update changes nothing. Only the subject's rows change, and only in role and department; the department is null when none is supplied. The reply carries the subject's row as read back after the update, and is empty exactly when the subject does not exist. The log is append-only. It grows by one entry exactly when the subject exists and the read, the update and the insert all succeed. That entry's old role and department are the pre-state, its new ones are the post-state, and it carries the actor, the reason and the time |
| Api.UpdatedRowFound | src/db/api.ts:368-376 | the updated row read back is the subject's row with the new role and department, and a missing subject stays missing |
| Api.RemoveRole | src/db/api.ts:396-402 | `removeRole` leaves the subject a plain member without a department, leaves all other rows alone, and logs the change even for a subject that already was a plain member |
| Api.GetAllProfiles | src/db/api.ts:86-98 | at most `limit` rows, newest first, all drawn from the table; when `offset` is within the table, exactly `min(limit, n - offset)` rows, and they are the newest-first order from position `offset` on |
| Api.FirstPageIsNewest | src/db/api.ts:86-98 | the first page holds the newest profiles, and the whole table when it fits in one page |
| Api.GetAllStudyMaterials | src/db/api.ts:326-338 | at most `limit` materials, newest first, all drawn from the table; when `offset` is within the table, exactly `min(limit, n - offset)` of them, taken from position `offset` on in newest-first order |
| Api.GetLeaderboard | src/db/api.ts:255-262 | at most `limit` rows of the ranking view, in the view's order |
| Api.ScopeLogs | src/db/api.ts:418-420 | the user filter keeps exactly the entries about the given user, in order, and keeps everything when no user or an empty id is given |
| Api.GetRoleChangeLogs | src/db/api.ts:404-424 | exactly `min(limit, m)` entries where `m` entries are in scope, newest first, each from the log and about the given user when one is given |
| Api.LogQueryNewest | src/db/api.ts:404-424 | the entries returned are the newest in scope: any entry in scope left out is no newer than any returned, and all entries in scope are returned when they fit in the limit |
| Api.CreateScore | src/db/api.ts:189-200 | a successful insert appends exactly one score carrying the input's fields and the signed-in user as `created_by`; a failed one changes nothing |
| Api.ApplyScoreUpdate | src/db/api.ts:202-211 | an update changes only the score and reason it sends, never the id, owner, department, author or timestamps |
| Api.UpdateScore | src/db/api.ts:202-211 | a failed request changes nothing; otherwise each score with the id takes the sent score and reason and keeps its id, member, department and author, every other score is unchanged, and an unknown id changes nothing |
| Api.UpdateScoreIdempotent | src/db/api.ts:202-211 | sending the same update twice leaves the table as sending it once |
| Api.DeleteScore | src/db/api.ts:213-220 | a failed request reports its error and deletes nothing; otherwise no score with the id remains, every other score remains, and their order is kept |
| Api.CreateThenDelete | src/db/api.ts:189-220 | deleting the score just created under a fresh id restores the table |
| Api.FilterAppend | src/db/api.ts:213-220 | deleting from a table with rows appended deletes from each part separately |
| Api.UpdateProfile | src/db/api.ts:75-84 | a failed request reports its error and writes nothing; otherwise the rows with the id get the sent name and e-mail, and the sent group when one is sent. No other row changes, and id, user name, role, department, `group_change_count` and `created_at` are never touched |
| RoleManagement.Snapshot | src/pages/RoleManagementPage.tsx:52 | the managed members are exactly the loaded profiles that are not presidents, in loaded order |
| RoleManagement.OpenForm | src/pages/RoleManagementPage.tsx:274-281 | the Manage button opens the form on the member's current role and department, with an empty reason |
| RoleManagement.Validate | src/pages/RoleManagementPage.tsx:63-95 | the request is refused for missing member or role; else for a head without a department; else when another member heads that department; else when another member leads the subject's group. A group leader without a group is always accepted |
| RoleManagement.HandleAssignRole | src/pages/RoleManagementPage.tsx:63-104 | a refused request leaves the store as it was and sends nothing; an accepted one is exactly `assignRole` with empty department and reason sent as absent |
| RoleManagement.HandleRemoveRole | src/pages/RoleManagementPage.tsx:121-138 | nothing happens unless the president confirms; a confirmed removal is exactly `removeRole` with the fixed reason, which the log entry carries |
| RoleManagement.RemovalKeepsLeadershipUnique | src/pages/RoleManagementPage.tsx:121-138 | with unique ids, a removal never leaves two heads of a department or two leaders of a group |
| RoleManagement.RoleBadge | src/pages/RoleManagementPage.tsx:140-147 | the three manageable roles get their labels; any other string, `president` included, is shown unchanged |
| RoleManagement.SnapshotCovers | src/pages/RoleManagementPage.tsx:52 | the president-free snapshot still shows every head and leader of the store it was loaded from |
| RoleManagement.LoadedSnapshotCovers | src/pages/RoleManagementPage.tsx:47-52 | when the store fits on the first page of 100 profiles, the snapshot the page loads shows every head and leader of the store, so the theorem's snapshot hypothesis holds |
| RoleManagement.OneRowChangeKeepsHeads | src/pages/RoleManagementPage.tsx:76-84 | changing one row keeps department heads unique unless that row becomes head of a department someone else heads |
| RoleManagement.OneRowChangeKeepsLeaders | src/pages/RoleManagementPage.tsx:87-95 | changing one row keeps group leaders unique unless that row becomes leader of a group someone else leads |
| RoleManagement.ApprovedRowChangeKeepsLeadershipUnique | src/pages/RoleManagementPage.tsx:76-95 | when only the subject's row changes, its group stays, and the role it takes passes both conflict checks against a snapshot covering the store, heads and leaders stay unique |
| RoleManagement.AcceptedAssignmentKeepsLeadershipUnique | src/pages/RoleManagementPage.tsx:63-104 | with unique ids, no empty-string group id, the selected member a row of the store and a snapshot covering the store, an assignment the page lets through keeps at most one head per department and one leader per group |
| RoleManagement.OwnHeadshipNeverBlocks | src/pages/RoleManagementPage.tsx:76-84 | the subject's own headship never blocks naming them head again |
| RoleManagement.PresidentsUntouched | src/pages/RoleManagementPage.tsx:52 | with members chosen from the snapshot and roles from the three choices, no row becomes or stops being president, and president rows are unchanged |
| ProfilePage.LoadForm | src/pages/ProfilePage.tsx:35-39 | the form holds the profile's name, e-mail and group, which come back unchanged when sent as they are |
| ProfilePage.IsGroupChanging | src/pages/ProfilePage.tsx:57 | the raw comparison counts as changing whenever the profile has no group, and otherwise exactly when the field differs from the group |
| ProfilePage.BuildUpdate | src/pages/ProfilePage.tsx:65-72 | name and e-mail are always sent, empty as null; the group is sent, empty as null, exactly when it is changing |
| ProfilePage.HandleSave | src/pages/ProfilePage.tsx:50-72 | nothing happens without a profile; a group change after the first is refused; otherwise the own row gets the update: name and e-mail with empty as null, and the group field with empty as null exactly when changing |
| ProfilePage.SaveKeepsCounterAndRole | src/pages/ProfilePage.tsx:59-75 | a save never writes `group_change_count`, the role or the department of any row |
| ProfilePage.GrouplessMemberLockedOut | src/pages/ProfilePage.tsx:57-63 | a profile without a group whose change is used up cannot save even a new name |
| ProfilePage.IsGroupChangingNormalised | src/pages/ProfilePage.tsx:57 | the intended comparison: for a member without a group, the group changes exactly when a group is picked; with a group, exactly when the field names another group; a field left as loaded never counts as a change |
| ProfilePage.HandleSaveNormalised | src/pages/ProfilePage.tsx:50-72 | `handleSave` with the intended comparison: the same guard, and the same update record (name, e-mail, and the group field with empty as null exactly when the normalised comparison says it changes) |
| ProfilePage.UntouchedGroupNeverLocked | src/pages/ProfilePage.tsx:57-72 | with the intended comparison, a form whose group is left as loaded is always saved and never sends a group |
| ProfilePage.ComparisonsAgreeWithGroup | src/pages/ProfilePage.tsx:57 | for a profile that has a group, the raw and the intended comparison agree |
| MembersPage.FilterMembers | src/pages/MembersPage.tsx:51-74 | the list shown is an order-preserving subsequence of the members, each stage keeping the order of the one before. Everyone in it matches the search term (user name or full name, lower-cased), the group and the role. Every member matching all three is in it. With the filters off it is the whole list |
| MembersPage.FilterMembersIsOneFilter | src/pages/MembersPage.tsx:51-74 | the three chained filters select exactly what one filter by all three tests selects |
| MembersPage.RoleBadge | src/pages/MembersPage.tsx:76-84 | each of the four roles gets its label and any other string is shown unchanged |
| StudyMaterials.Sanitise | src/pages/StudyMaterialsPage.tsx:78 | the storage name has the input's length, only `[a-zA-Z0-9._-]` characters, allowed characters in place and `_` for the rest |
| StudyMaterials.SanitiseIdempotent | src/pages/StudyMaterialsPage.tsx:78 | sanitising twice is sanitising once |
| StudyMaterials.SanitiseKeepsSafeNames | src/pages/StudyMaterialsPage.tsx:78 | a name of allowed characters only is kept as it is |
| StudyMaterials.SelectFile | src/pages/StudyMaterialsPage.tsx:56-65 | a picked PDF becomes the selection; anything else leaves the selection as it was |
| StudyMaterials.HandleUpload | src/pages/StudyMaterialsPage.tsx:67-93 | refused without a file or a title; otherwise the path is the timestamp, `_` and the sanitised name, the record keeps the original name, the visibility flag and the file size are sent as given, and empty description and department are sent as absent |
| StudyMaterials.UploadPathIsSafe | src/pages/StudyMaterialsPage.tsx:77-78 | every storage path built consists of allowed characters only |
| StudyMaterials.CanDeleteCases | src/pages/StudyMaterialsPage.tsx:205 | delete is offered to a president, to a head exactly for materials of their own department, and to nobody else |
| LeaderboardPage.ScoreRequest | src/pages/LeaderboardPage.tsx:53-65 | no request unless member, department and score are all filled; the request carries them and an empty reason as absent |
| LeaderboardPage.SubmitScore | src/pages/LeaderboardPage.tsx:53-65 | a refused form or a failed insert leaves the scores unchanged; an accepted one appends one score for the chosen member and department, authored by the signed-in user |
| LeaderboardPage.GetRankIcon | src/pages/LeaderboardPage.tsx:83-88 | ranks 1, 2 and 3 get the trophy, medal and award, each for that rank only; every other rank gets none |
| LeaderboardPage.RankIconsDistinct | src/pages/LeaderboardPage.tsx:83-88 | the three top ranks get three different icons |
| Access.CanManageContent | src/pages/StudyMaterialsPage.tsx:33 | `canUpload`, and likewise `canEditScores` of the leaderboard page (line 30 there), holds exactly for presidents and department heads |
| Access.DepartmentOptions | src/pages/StudyMaterialsPage.tsx:257-262 | a president sees all departments, a head exactly their own, anyone else none, in the listed order; the score dialog filters the same way (LeaderboardPage.tsx lines 197-202) |
| MainLayout.HeadsOfSplit | src/components/layouts/MainLayout.tsx:42-45 | split on spaces, first characters joined, yields exactly the word-initial characters; empty segments add nothing |
| MainLayout.GetInitials | src/components/layouts/MainLayout.tsx:40-48 | `U` for a missing or empty name; otherwise the first two word-initial characters, upper-cased, never more than two |
| MainLayout.BlankNameHasNoInitials | src/components/layouts/MainLayout.tsx:41-47 | a name of spaces only is not empty, so it gets no fallback and its initials are empty |
| MainLayout.RoleBadge | src/components/layouts/MainLayout.tsx:50-55 | the badge is the signed-in role's label, and `Member` without a profile |
| MainLayout.NavigationItems | src/components/layouts/MainLayout.tsx:57-66 | the four base items in order, then Role Management, which is present exactly for a president |
| AuthContext.ExactlyOneRole | src/contexts/AuthContext.tsx:45-48 | with a profile exactly one role predicate holds, without one none does |
| AuthContext.AuthEmail | src/contexts/AuthContext.tsx:83 | the sign-in address is the username followed by `@miaoda.com` |
| AuthContext.AuthEmailInjective | src/contexts/AuthContext.tsx:83 | distinct usernames get distinct addresses |
| AuthContext.SignInWithUsername | src/contexts/AuthContext.tsx:81-94 | sign-in reports no error exactly when the provider accepts the derived address, and the provider's error otherwise |
| AuthContext.SignUpCredentials | src/contexts/AuthContext.tsx:96-104 | sign-up registers under the same derived address with the given password |
| AuthContext.SignUpThenSignInSameAccount | src/contexts/AuthContext.tsx:81-104 | signing in with a username asks the provider for the very credentials that signing up with it registered |
| AuthContext.RefreshProfile | src/contexts/AuthContext.tsx:50-58 | without a user the profile is cleared; with one it is whatever the query returned |
| AuthContext.SignOut | src/contexts/AuthContext.tsx:118-122 | both the user and the profile are cleared |
| AuthContext.SignedOutHasNoRole | src/contexts/AuthContext.tsx:118-122 | after sign-out no role predicate holds, and a profile refresh keeps the state cleared |
| DashboardPage.FindEntry | src/pages/DashboardPage.tsx:39 | the entry found is the first one carrying the profile's id, and there is none exactly when no profile or no row has that id |
| DashboardPage.DeriveStats | src/pages/DashboardPage.tsx:41-46 | the member and material figures are the list lengths; rank and score are 0 without a matching entry |
| DashboardPage.StatsShowOwnEntry | src/pages/DashboardPage.tsx:39-46 | with one leaderboard row per profile, rank and score are the own row's |
| DashboardPage.LoadStats | src/pages/DashboardPage.tsx:31-46 | the member figure is the table size capped at 100, the material figure is capped at 50, and a failed query counts as empty |
| DashboardPage.RankBeyondFirstPageShowsZero | src/pages/DashboardPage.tsx:39-46 | a member whose leaderboard row is not among the first 100 sees rank 0 and score 0 |
| DashboardPage.ViewFor | src/pages/DashboardPage.tsx:54-284 | the president view for a president, the head view for a head, the leader view for a leader, and the member view for a member or without a profile |

## Left out

- The ranking and summing behind the leaderboard view happen in a database view that is not part of this model. Leaderboard rows are input data.
- Network calls, auth sessions, the `onAuthStateChange` subscription and the file-storage upload and delete are left out. The store is three sequences. The identity provider is a function parameter. Clock, generated ids and the signed-in user are parameters.
- Concurrency and atomicity are left out. Each run is one sequential step. The role checks run against the page's snapshot of at most 100 profiles (`src/db/api.ts:86`), which can be stale or incomplete. The hierarchy theorem therefore assumes the snapshot covers the store (`RoleManagement.Covers`). The update and the log insert of `assignRole` are not one transaction.
- `supabase/functions/create-president/index.ts` and `src/pages/SetupPage.tsx` (the president bootstrap) are not part of this model. They are admin-API plumbing.
- Floating point is left out. Scores are integers, and the `parseFloat` of the score field is a parameter of `LeaderboardPage.ScoreRequest`. `formatFileSize` is not modelled.
- Database triggers and row-level security are left out, including whatever increments `group_change_count`. `Api.UpdateProfile` only shows that the page itself never writes the counter.
- Rendering, toasts, dialogs and static pages (`HomePage`, `PublicMaterialsPage`, `routes.tsx`) are left out.
- Text.Lower: `toLowerCase` and `toUpperCase` are modelled on ASCII letters only. Unicode case mapping is left out.
- RoleManagement.AcceptedAssignmentKeepsLeadershipUnique: assumes no group id is the empty string. The page tests `selectedMember.group_id` for truthiness (RoleManagementPage.tsx:87), so a member whose group id is `""` escapes the leader check, and two leaders of that group are not excluded.
- Ordering.SortDesc: breaks ties between equal `created_at` values by table order (a stable sort). The database promises no order among ties, not even the same order between two page requests, and rows inserted in one transaction share `now()`. The paging contracts of `Api.GetAllProfiles`, `Api.GetAllStudyMaterials` and `Api.GetRoleChangeLogs` inherit this choice.
- Text.Upper: `toUpperCase` is modelled on ASCII letters only, one character to one. Unicode upper-casing, which can lengthen a string (`ß` becomes `SS`) and so change what `slice(0, 2)` keeps in the initials, is left out.
- RoleManagement.RoleBadge: the badge map is a plain object, so a role string naming an inherited property such as `constructor` reads a function rather than falling back to the string; strings are modelled as passed through unchanged.
- StudyMaterials.Sanitise: limited to the Basic Multilingual Plane. A string is a sequence of characters, whereas JavaScript strings are UTF-16 code units; the regular expression has no `u` flag, so it replaces each half of a surrogate pair with its own `_` (`😀.pdf` gives `__.pdf` there, `_.pdf` here).
- MainLayout.GetInitials: limited to the Basic Multilingual Plane. `n[0]` and `slice(0, 2)` work on UTF-16 code units and can split a surrogate pair, which the character-level model cannot.
- An error from a list query is read as an empty list. This is modelled for the dashboard (`DashboardPage.LoadStats`) and otherwise not repeated.
- `avatar_url` and `updated_at` of a profile are not modelled. The related records (`department`, `group`, `uploader`) that the queries join in are not modelled either.
- MembersPage.RoleBadge: the badge records are plain objects, so a string such as `constructor` would look up an inherited property. The model treats every string other than the four role names as unknown.
- Api.FindProfile: `maybeSingle` reports an error when two rows share an id. Ids are a primary key, so the model returns the first row; the theorem assumes unique ids.
- `updateProfile`, `updateScore` and `deleteScore` return no error for an unknown id. The model likewise changes nothing and reports nothing; it has no "not found" error.
- No check in the code refuses a group leader without a group (`src/pages/RoleManagementPage.tsx:87`). `RoleManagement.Validate` accepts that case, as the code does.
- The result of the log insert in `assignRole` is not inspected. A role can therefore change without a log entry (`Faults.logInsertFails`), and the reply does not report it.

## Findings

| source | as written | input that shows it | evidently intended | confidence | as-written member | corrected member |
|---|---|---|---|---|---|---|
| src/pages/ProfilePage.tsx:57 | the form's group field (`''` when unset, line 38) is compared with `!==` against `profile.group_id`, which is `null` for a member without a group | a profile with `group_id` null and `group_change_count` 1 saves a new full name, leaving the group field untouched: the group counts as changing, and the save is refused with the "only change your group once" message | compare the field as null when empty (the empty field read as null before the `!==`), so an untouched group field never counts as a change | medium, not executed | ProfilePage.GrouplessMemberLockedOut | ProfilePage.UntouchedGroupNeverLocked |

=== FILE: access.dfy ===
/** The role-based permission tests the study-materials and leaderboard pages
    share: who may add content, and which departments they may choose. */
module Access {
  import opened Types
  import opened Ordering
  import opened AuthContext

  /** `isPresident || isDepartmentHead`: may upload materials and edit scores. */
  predicate CanManage(profile: Option<Profile>) {
    IsPresident(profile) || IsDepartmentHead(profile)
  }

  lemma CanManageContent(profile: Option<Profile>)
    ensures CanManage(profile) <==> profile.Some? && (profile.value.role == President || profile.value.role == DepartmentHead)
    ensures CanManage(profile) ==> !IsGroupLeader(profile) && !IsMember(profile)
  {
  }

  /** May `profile` pick department `d` in an upload or score form? */
  predicate MayChoose(profile: Option<Profile>, d: Department) {
    if IsPresident(profile) then true
    else if IsDepartmentHead(profile) then profile.value.departmentId == Some(d.id)
    else false
  }

  /** The department options offered: all for a president, the own department
      for a department head, none for anyone else. */
  function DepartmentOptions(departments: seq<Department>, profile: Option<Profile>): (r: seq<Department>)
    ensures IsSubsequence(r, departments)
    ensures IsPresident(profile) ==> r == departments
    ensures IsDepartmentHead(profile) ==>
              forall d :: d in r <==> d in departments && profile.value.departmentId == Some(d.id)
    ensures !CanManage(profile) ==> r == []
  {
    var r := Filter(departments, (d: Department) => MayChoose(profile, d));
    FilterIsSubsequence(departments, (d: Department) => MayChoose(profile, d));
    FilterMembership(departments, (d: Department) => MayChoose(profile, d));
    assert IsPresident(profile) ==> r == departments by {
      if IsPresident(profile) {
        FilterAll(departments, (d: Department) => MayChoose(profile, d));
      }
    }
    assert r != [] ==> r[0] in r;
    r
  }
}

=== FILE: api.dfy ===
/** The data-access layer (src/db/api.ts) as pure transitions over an abstract
    store: the profiles table, the append-only role-change log and the score
    table. The database is a parameter; its failures are explicit flags. */
module Api {
  import opened Types
  import opened Ordering

  const DefaultProfileLimit: nat := 100
  const DefaultMaterialLimit: nat := 50
  const DefaultLeaderboardLimit: nat := 100

  /** The tables the core reads and writes. */
  datatype Store = Store(profiles: seq<Profile>, logs: seq<RoleChangeLog>, scores: seq<Score>)

  /** What a query returns: its data, and whether it reported an error. */
  datatype Reply<T> = Reply(data: Option<T>, failed: bool)

  /** The database's answer to each of the three requests `assignRole` sends. */
  datatype Faults = Faults(readFails: bool, updateFails: bool, logInsertFails: bool)

  /** What `assignRole` takes from its surroundings: the signed-in user, the
      clock and id generator of the database, and which requests fail. */
  datatype Env = Env(actor: Option<string>, now: int, freshId: string, faults: Faults)

  datatype AssignRoleInput = AssignRoleInput(
    userId: string,
    newRole: UserRole,
    departmentId: Option<string>,
    reason: Option<string>)

  function ProfileCreated(p: Profile): int { p.createdAt }
  function LogCreated(l: RoleChangeLog): int { l.createdAt }

  /** Primary-key uniqueness of the profiles table. */
  predicate UniqueIds(ps: seq<Profile>) {
    forall i, j :: 0 <= i < |ps| && 0 <= j < |ps| && i != j ==> ps[i].id != ps[j].id
  }

  /** `.eq('id', id).maybeSingle()`: the row with that id, if any. */
  function FindProfile(ps: seq<Profile>, id: string): (r: Option<Profile>)
    ensures r.Some? ==> r.value in ps && r.value.id == id
    ensures r.None? <==> forall p :: p in ps ==> p.id != id
    ensures r.Some? ==> exists i :: 0 <= i < |ps| && ps[i] == r.value && forall k :: 0 <= k < i ==> ps[k].id != id
  {
    if ps == [] then None
    else if ps[0].id == id then Some(ps[0])
    else
      FindProfile(ps[1..], id)
  }

  /** With unique ids the row found is the only row with that id. */
  lemma FindUnique(ps: seq<Profile>, i: nat)
    requires UniqueIds(ps) && i < |ps|
    ensures FindProfile(ps, ps[i].id) == Some(ps[i])
  {
    var r := FindProfile(ps, ps[i].id);
    var k :| 0 <= k < |ps| && ps[k] == r.value && forall m :: 0 <= m < k ==> ps[m].id != ps[i].id;
  }

  /** `update({ role, department_id }).eq('id', id)`: every row with that id gets
      the new role and department; nothing else changes. */
  function SetRoleRows(ps: seq<Profile>, id: string, role: UserRole, dept: Option<string>): (r: seq<Profile>)
    ensures |r| == |ps|
    ensures forall i :: 0 <= i < |ps| && ps[i].id != id ==> r[i] == ps[i]
    ensures forall i :: 0 <= i < |ps| && ps[i].id == id ==> r[i] == ps[i].(role := role, departmentId := dept)
  {
    if ps == [] then []
    else
      var head := if ps[0].id == id then ps[0].(role := role, departmentId := dept) else ps[0];
      [head] + SetRoleRows(ps[1..], id, role, dept)
  }

  /** The log entry `assignRole` writes for a subject whose row read `before`. */
  function LogEntry(input: AssignRoleInput, before: Profile, env: Env): RoleChangeLog {
    RoleChangeLog(
      env.freshId, input.userId, Some(before.role), input.newRole,
      before.departmentId, NullIfEmpty(input.departmentId.GetOr("")),
      env.actor, input.reason, env.now)
  }

  /** `assignRole`: read the subject's role and department, overwrite both
      (an absent or empty department becomes null), then append one log entry
      if the read found the subject and the update reported no error. The
      result of the log insert is not inspected by the source. */
  function AssignRole(store: Store, input: AssignRoleInput, env: Env): (r: (Store, Reply<Profile>))
    // Scores are never touched, and a failed update changes nothing.
    ensures r.0.scores == store.scores
    ensures r.1.failed <==> env.faults.updateFails
    ensures env.faults.updateFails ==> r.0 == store
    // Only the subject's rows change, and they change in role and department only.
    ensures |r.0.profiles| == |store.profiles|
    ensures forall i :: 0 <= i < |store.profiles| && store.profiles[i].id != input.userId ==>
              r.0.profiles[i] == store.profiles[i]
    ensures !env.faults.updateFails ==>
              forall i :: 0 <= i < |store.profiles| && store.profiles[i].id == input.userId ==>
                && r.0.profiles[i].role == input.newRole
                && r.0.profiles[i].departmentId == NullIfEmpty(input.departmentId.GetOr(""))
                && r.0.profiles[i] == store.profiles[i].(role := r.0.profiles[i].role, departmentId := r.0.profiles[i].departmentId)
    // The reply carries the updated row exactly when the subject exists.
    ensures !env.faults.updateFails ==> (r.1.data.Some? <==> exists p :: p in store.profiles && p.id == input.userId)
    ensures !env.faults.updateFails ==> r.1.data == FindProfile(r.0.profiles, input.userId)
    // The log is append-only and grows by one entry exactly when all three requests succeed on an existing subject.
    ensures r.0.logs == store.logs || (|r.0.logs| == |store.logs| + 1 && r.0.logs[..|store.logs|] == store.logs)
    ensures |r.0.logs| == |store.logs| + 1 <==>
              && !env.faults.readFails && !env.faults.updateFails && !env.faults.logInsertFails
              && exists p :: p in store.profiles && p.id == input.userId
    // The entry records the pre-state and the post-state of the subject.
    ensures |r.0.logs| == |store.logs| + 1 ==>
              var e := r.0.logs[|store.logs|];
              var before := FindProfile(store.profiles, input.userId).value;
              var after := FindProfile(r.0.profiles, input.userId).value;
              && e.userId == input.userId
              && e.oldRole == Some(before.role) && e.oldDepartmentId == before.departmentId
              && e.newRole == after.role && e.newDepartmentId == after.departmentId
              && e.changedBy == env.actor && e.reason == input.reason && e.createdAt == env.now
  {
    var current := if env.faults.readFails then None else FindProfile(store.profiles, input.userId);
    if env.faults.updateFails then (store, Reply(None, true))
    else
      var dept := NullIfEmpty(input.departmentId.GetOr(""));
      var profiles := SetRoleRows(store.profiles, input.userId, input.newRole, dept);
      var updated := FindProfile(profiles, input.userId);
      UpdatedRowFound(store.profiles, input.userId, input.newRole, dept);
      var logs :=
        if current.Some? && !env.faults.logInsertFails
        then store.logs + [LogEntry(input, current.value, env)]
        else store.logs;
      (store.(profiles := profiles, logs := logs), Reply(updated, false))
  }

  /** Reading the subject back after the update finds its first row, updated. */
  lemma {:induction false} UpdatedRowFound(ps: seq<Profile>, id: string, role: UserRole, dept: Option<string>)
    ensures FindProfile(ps, id).None? ==> FindProfile(SetRoleRows(ps, id, role, dept), id).None?
    ensures FindProfile(ps, id).Some? ==>
              FindProfile(SetRoleRows(ps, id, role, dept), id) == Some(FindProfile(ps, id).value.(role := role, departmentId := dept))
  {
    if ps != [] {
      var t := SetRoleRows(ps, id, role, dept);
      if ps[0].id == id {
        assert t[0] == ps[0].(role := role, departmentId := dept);
      } else {
        assert t[0] == ps[0];
        assert t[1..] == SetRoleRows(ps[1..], id, role, dept);
        UpdatedRowFound(ps[1..], id, role, dept);
      }
    }
  }

  /** `removeRole`: `assignRole` to plain member with no department. */
  function RemoveRole(store: Store, userId: string, reason: Option<string>, env: Env): (r: (Store, Reply<Profile>))
    ensures |r.0.profiles| == |store.profiles|
    ensures !env.faults.updateFails ==>
              forall i :: 0 <= i < |store.profiles| && store.profiles[i].id == userId ==>
                r.0.profiles[i].role == Member && r.0.profiles[i].departmentId == None
    ensures forall i :: 0 <= i < |store.profiles| && store.profiles[i].id != userId ==>
              r.0.profiles[i] == store.profiles[i]
    // A subject that is already a plain member is still logged.
    ensures (&& !env.faults.readFails && !env.faults.updateFails && !env.faults.logInsertFails
             && exists p :: p in store.profiles && p.id == userId) ==>
              && |r.0.logs| == |store.logs| + 1
              && r.0.logs[|store.logs|].newRole == Member
              && r.0.logs[|store.logs|].newDepartmentId == None
  {
    AssignRole(store, AssignRoleInput(userId, Member, None, reason), env)
  }

  /** `getAllProfiles(limit, offset)`: newest first, `limit` rows from `offset`. */
  function GetAllProfiles(ps: seq<Profile>, limit: nat, offset: nat): (r: seq<Profile>)
    ensures |r| <= limit
    ensures SortedDesc(r, ProfileCreated)
    ensures multiset(r) <= multiset(ps)
    ensures offset <= |ps| ==> |r| == Min(limit, |ps| - offset)
    ensures offset <= |ps| ==> forall i :: 0 <= i < |r| ==> r[i] == SortDesc(ps, ProfileCreated)[offset + i]
  {
    NewestPage(ps, offset, limit, ProfileCreated);
    Page(SortDesc(ps, ProfileCreated), offset, limit)
  }

  /** A page of the newest-first order: at most `limit` rows, still newest
      first, drawn from the input, and starting at position `offset`. */
  lemma NewestPage<T>(s: seq<T>, offset: nat, limit: nat, key: T -> int)
    ensures var sorted := SortDesc(s, key);
            var r := Page(sorted, offset, limit);
            && |r| <= limit
            && SortedDesc(r, key)
            && multiset(r) <= multiset(s)
            && (offset <= |s| ==> |r| == Min(limit, |s| - offset))
            && (offset <= |s| ==> forall i :: 0 <= i < |r| ==> r[i] == sorted[offset + i])
  {
    var sorted := SortDesc(s, key);
    var r := Page(sorted, offset, limit);
    PageOfSorted(sorted, offset, limit, key);
    assert multiset(r) <= multiset(s) by {
      assert multiset(sorted) == multiset(s);
    }
    assert offset <= |s| ==> |r| == Min(limit, |s| - offset) by {
      assert |sorted| == |s|;
    }
  }

  lemma PageOfSorted<T>(s: seq<T>, offset: nat, limit: nat, key: T -> int)
    requires SortedDesc(s, key)
    ensures SortedDesc(Page(s, offset, limit), key)
    ensures multiset(Page(s, offset, limit)) <= multiset(s)
    ensures offset <= |s| ==> Page(s, offset, limit) == s[offset..offset + |Page(s, offset, limit)|]
  {
    if offset <= |s| {
      var k := Min(limit, |s| - offset);
      assert Page(s, offset, limit) == s[offset..offset + k];
      assert s == s[..offset] + s[offset..offset + k] + s[offset + k..];
    }
  }

  /** The first page holds the newest profiles: every profile left out is no
      newer than any profile shown, and when the table fits in one page it is
      shown whole. */
  lemma {:induction false} FirstPageIsNewest(ps: seq<Profile>, limit: nat)
    ensures forall x, y :: x in GetAllProfiles(ps, limit, 0) && y in multiset(ps) - multiset(GetAllProfiles(ps, limit, 0)) ==>
              y.createdAt <= x.createdAt
    ensures |ps| <= limit ==> multiset(GetAllProfiles(ps, limit, 0)) == multiset(ps)
  {
    var sorted := SortDesc(ps, ProfileCreated);
    assert Page(sorted, 0, limit) == Take(sorted, limit);
    TakeKeepsLargest(sorted, limit, ProfileCreated);
    if |ps| <= limit {
      assert Take(sorted, limit) == sorted;
    }
  }

  function MaterialCreated(m: StudyMaterial): int { m.createdAt }

  /** `getAllStudyMaterials(limit, offset)`: newest first, `limit` rows from `offset`. */
  function GetAllStudyMaterials(ms: seq<StudyMaterial>, limit: nat, offset: nat): (r: seq<StudyMaterial>)
    ensures |r| <= limit
    ensures SortedDesc(r, MaterialCreated)
    ensures multiset(r) <= multiset(ms)
    ensures offset <= |ms| ==> |r| == Min(limit, |ms| - offset)
    ensures offset <= |ms| ==> forall i :: 0 <= i < |r| ==> r[i] == SortDesc(ms, MaterialCreated)[offset + i]
  {
    NewestPage(ms, offset, limit, MaterialCreated);
    Page(SortDesc(ms, MaterialCreated), offset, limit)
  }

  /** `getLeaderboard(limit)`: the first `limit` rows of the ranking view, in
      the view's own order. */
  function GetLeaderboard(board: seq<LeaderboardEntry>, limit: nat): (r: seq<LeaderboardEntry>)
    ensures |r| == Min(limit, |board|)
    ensures forall i :: 0 <= i < |r| ==> r[i] == board[i]
  {
    Take(board, limit)
  }

  /** An entry the user filter lets through: no filter, or the entry is about that user. */
  predicate InScope(e: RoleChangeLog, userId: Option<string>) {
    userId.None? || userId.value == "" || e.userId == userId.value
  }

  /** `if (userId) query = query.eq('user_id', userId)`: an empty id filters nothing. */
  function ScopeLogs(logs: seq<RoleChangeLog>, userId: Option<string>): (r: seq<RoleChangeLog>)
    ensures forall e :: e in r <==> e in logs && InScope(e, userId)
    ensures IsSubsequence(r, logs)
  {
    if userId.Some? && userId.value != "" then
      FilterMembership(logs, (e: RoleChangeLog) => e.userId == userId.value);
      FilterIsSubsequence(logs, (e: RoleChangeLog) => e.userId == userId.value);
      Filter(logs, (e: RoleChangeLog) => e.userId == userId.value)
    else
      IsSubsequenceRefl(logs);
      logs
  }

  /** `getRoleChangeLogs(userId?, limit)`: the entries in scope, newest first,
      at most `limit` of them. */
  function GetRoleChangeLogs(logs: seq<RoleChangeLog>, userId: Option<string>, limit: nat): (r: seq<RoleChangeLog>)
    ensures |r| == Min(limit, |ScopeLogs(logs, userId)|)
    ensures SortedDesc(r, LogCreated)
    ensures multiset(r) <= multiset(ScopeLogs(logs, userId))
    ensures forall e :: e in r ==> e in logs && InScope(e, userId)
  {
    var scoped := ScopeLogs(logs, userId);
    var sorted := SortDesc(scoped, LogCreated);
    var r := Take(sorted, limit);
    assert Page(sorted, 0, limit) == r;
    PageOfSorted(sorted, 0, limit, LogCreated);
    assert forall e :: e in r ==> e in scoped by {
      forall e | e in r ensures e in scoped {
        assert e in multiset(r);
      }
    }
    r
  }

  /** The query returns the newest entries in scope: every entry in scope that
      is left out is no newer than any entry returned, and when the entries in
      scope fit in the limit, all of them are returned. */
  lemma {:induction false} LogQueryNewest(logs: seq<RoleChangeLog>, userId: Option<string>, limit: nat)
    ensures var r := GetRoleChangeLogs(logs, userId, limit);
            forall x, y :: x in r && y in multiset(ScopeLogs(logs, userId)) - multiset(r) ==> y.createdAt <= x.createdAt
    ensures |ScopeLogs(logs, userId)| <= limit ==>
              forall e :: e in logs && InScope(e, userId) ==> e in GetRoleChangeLogs(logs, userId, limit)
  {
    var scoped := ScopeLogs(logs, userId);
    var sorted := SortDesc(scoped, LogCreated);
    TakeKeepsLargest(sorted, limit, LogCreated);
    if |scoped| <= limit {
      assert Take(sorted, limit) == sorted;
      forall e | e in logs && InScope(e, userId)
        ensures e in sorted
      {
        assert e in multiset(scoped);
      }
    }
  }

  // ============= Scores =============

  datatype CreateScoreInput = CreateScoreInput(userId: string, departmentId: string, score: int, reason: Option<string>)

  /** Only the fields present are sent. */
  datatype UpdateScoreInput = UpdateScoreInput(score: Option<int>, reason: Option<string>)

  function ScoreIds(scores: seq<Score>): set<string> {
    set s | s in scores :: s.id
  }

  /** `createScore`: one row appended, attributed to the signed-in user; the
      database supplies the id and timestamps. A failed insert changes nothing. */
  function CreateScore(scores: seq<Score>, input: CreateScoreInput, user: Option<string>, freshId: string, now: int, fails: bool): (r: (seq<Score>, bool))
    ensures r.1 == fails
    ensures fails ==> r.0 == scores
    ensures !fails ==> |r.0| == |scores| + 1 && r.0[..|scores|] == scores
    ensures !fails ==>
              var s := r.0[|scores|];
              && s.id == freshId && s.userId == input.userId && s.departmentId == input.departmentId
              && s.score == input.score && s.reason == input.reason && s.createdBy == user
  {
    if fails then (scores, true)
    else (scores + [Score(freshId, input.userId, input.departmentId, input.score, input.reason, user, now, now)], false)
  }

  /** The fields of an update applied to one row. */
  function ApplyScoreUpdate(s: Score, u: UpdateScoreInput): (r: Score)
    ensures r.id == s.id && r.userId == s.userId && r.departmentId == s.departmentId && r.createdBy == s.createdBy
    ensures r.score == (if u.score.Some? then u.score.value else s.score)
    ensures r.reason == (if u.reason.Some? then u.reason else s.reason)
    ensures r.createdAt == s.createdAt && r.updatedAt == s.updatedAt
  {
    s.(score := u.score.GetOr(s.score), reason := if u.reason.Some? then u.reason else s.reason)
  }

  /** `updateScore`: rows with the id get the sent fields; others are untouched.
      An unknown id changes nothing and is not an error. */
  function UpdateScore(scores: seq<Score>, id: string, u: UpdateScoreInput, fails: bool): (r: (seq<Score>, bool))
    ensures r.1 == fails
    ensures |r.0| == |scores|
    ensures forall i :: 0 <= i < |scores| && (fails || scores[i].id != id) ==> r.0[i] == scores[i]
    ensures !fails ==> forall i :: 0 <= i < |scores| && scores[i].id == id ==>
              r.0[i] == ApplyScoreUpdate(scores[i], u)
    ensures id !in ScoreIds(scores) ==> r.0 == scores
  {
    if fails then (scores, true)
    else
      var r := seq(|scores|, i requires 0 <= i < |scores| => if scores[i].id == id then ApplyScoreUpdate(scores[i], u) else scores[i]);
      assert id !in ScoreIds(scores) ==> r == scores by {
        if id !in ScoreIds(scores) {
          forall i | 0 <= i < |scores| ensures r[i] == scores[i] {
            assert scores[i] in scores;
          }
        }
      }
      (r, false)
  }

  /** Sending the same update twice has the effect of sending it once. */
  lemma UpdateScoreIdempotent(scores: seq<Score>, id: string, u: UpdateScoreInput)
    ensures UpdateScore(UpdateScore(scores, id, u, false).0, id, u, false).0 == UpdateScore(scores, id, u, false).0
  {
  }

  /** `deleteScore`: every row with the id goes, the others stay in order. A
      failed request reports its error and deletes nothing. */
  function DeleteScore(scores: seq<Score>, id: string, fails: bool): (r: (seq<Score>, bool))
    ensures r.1 == fails
    ensures fails ==> r.0 == scores
    ensures !fails ==> id !in ScoreIds(r.0)
    ensures forall s :: s in scores && s.id != id ==> s in r.0
    ensures forall s :: s in r.0 ==> s in scores
    ensures IsSubsequence(r.0, scores)
  {
    if fails then
      IsSubsequenceRefl(scores);
      (scores, true)
    else
      var r := Filter(scores, (s: Score) => s.id != id);
      FilterIsSubsequence(scores, (s: Score) => s.id != id);
      FilterMembership(scores, (s: Score) => s.id != id);
      (r, false)
  }

  /** Deleting the row just created restores the table, provided the new id was fresh. */
  lemma {:induction false} CreateThenDelete(scores: seq<Score>, input: CreateScoreInput, user: Option<string>, freshId: string, now: int)
    requires freshId !in ScoreIds(scores)
    ensures DeleteScore(CreateScore(scores, input, user, freshId, now, false).0, freshId, false).0 == scores
  {
    var keep := (s: Score) => s.id != freshId;
    var created := CreateScore(scores, input, user, freshId, now, false).0;
    FilterAppend(scores, [created[|scores|]], keep);
    assert created == scores + [created[|scores|]];
    forall s | s in scores ensures keep(s) {
      assert s.id in ScoreIds(scores);
    }
    FilterAll(scores, keep);
    assert Filter([created[|scores|]], keep) == [];
  }

  lemma {:induction false} FilterAppend<T>(a: seq<T>, b: seq<T>, keep: T -> bool)
    ensures Filter(a + b, keep) == Filter(a, keep) + Filter(b, keep)
  {
    if a == [] {
      assert a + b == b;
    } else {
      var c := a + b;
      assert c[0] == a[0] && c[1..] == a[1..] + b;
      FilterAppend(a[1..], b, keep);
      var head := if keep(a[0]) then [a[0]] else [];
      assert Filter(c, keep) == head + Filter(c[1..], keep);
      assert Filter(a, keep) == head + Filter(a[1..], keep);
    }
  }

  // ============= Profile update =============

  /** `UpdateProfileInput` as the profile page builds it: the name and e-mail
      are always sent; the group only when `groupId` is present. */
  datatype ProfileUpdate = ProfileUpdate(fullName: Option<string>, email: Option<string>, groupId: Option<Option<string>>)

  /** `updateProfile`: the sent columns are written to the rows with the id;
      a failed request reports its error and writes nothing. */
  function UpdateProfile(ps: seq<Profile>, id: string, u: ProfileUpdate, fails: bool): (r: (seq<Profile>, bool))
    ensures r.1 == fails
    ensures fails ==> r.0 == ps
    ensures |r.0| == |ps|
    ensures forall i :: 0 <= i < |ps| && ps[i].id != id ==> r.0[i] == ps[i]
    ensures !fails ==> forall i :: 0 <= i < |ps| && ps[i].id == id ==>
              && r.0[i].fullName == u.fullName && r.0[i].email == u.email
              && r.0[i].groupId == u.groupId.GetOr(ps[i].groupId)
    ensures forall i :: 0 <= i < |ps| ==>
              && r.0[i].id == ps[i].id && r.0[i].role == ps[i].role && r.0[i].departmentId == ps[i].departmentId
              && r.0[i].groupChangeCount == ps[i].groupChangeCount && r.0[i].username == ps[i].username
              && r.0[i].createdAt == ps[i].createdAt
    ensures forall i :: 0 <= i < |ps| && u.groupId.None? ==> r.0[i].groupId == ps[i].groupId
  {
    if fails then (ps, true)
    else
      (seq(|ps|, i requires 0 <= i < |ps| =>
        if ps[i].id == id
        then ps[i].(fullName := u.fullName, email := u.email, groupId := u.groupId.GetOr(ps[i].groupId))
        else ps[i]), false)
  }
}

=== FILE: auth_context.dfy ===
/** The authentication context (src/contexts/AuthContext.tsx): the signed-in
    user and profile, the role predicates every page reads, and the mapping
    of a username to the identity provider's e-mail address. */
module AuthContext {
  import opened Types

  /** The signed-in user's id and the profile loaded for it. */
  datatype AuthState = AuthState(user: Option<string>, profile: Option<Profile>)

  /** The domain every username is turned into an address under. */
  const AuthDomain: string := "@miaoda.com"

  predicate IsPresident(profile: Option<Profile>) {
    profile.Some? && profile.value.role == President
  }

  predicate IsDepartmentHead(profile: Option<Profile>) {
    profile.Some? && profile.value.role == DepartmentHead
  }

  predicate IsGroupLeader(profile: Option<Profile>) {
    profile.Some? && profile.value.role == GroupLeader
  }

  predicate IsMember(profile: Option<Profile>) {
    profile.Some? && profile.value.role == Member
  }

  function Count(b: bool): nat { if b then 1 else 0 }

  /** With a profile exactly one role predicate holds; without one none does. */
  lemma ExactlyOneRole(profile: Option<Profile>)
    ensures var n := Count(IsPresident(profile)) + Count(IsDepartmentHead(profile))
                   + Count(IsGroupLeader(profile)) + Count(IsMember(profile));
            (profile.Some? ==> n == 1) && (profile.None? ==> n == 0)
  {
  }

  /** `${username}@miaoda.com`. */
  function AuthEmail(username: string): (e: string)
    ensures |e| == |username| + |AuthDomain|
    ensures e[..|username|] == username && e[|username|..] == AuthDomain
  {
    username + AuthDomain
  }

  /** Distinct usernames get distinct addresses, so no two accounts collide. */
  lemma AuthEmailInjective(a: string, b: string)
    requires AuthEmail(a) == AuthEmail(b)
    ensures a == b
  {
    assert a == AuthEmail(a)[..|a|];
    assert b == AuthEmail(b)[..|b|];
  }

  /** The credentials handed to the identity provider. */
  datatype Credentials = Credentials(email: string, password: string)

  /** An identity-provider call: the error it reports, if any. */
  type Provider = Credentials -> Option<string>

  /** `signInWithUsername`: sign in at the derived address; the provider's error
      comes back as the result, success as null. */
  function SignInWithUsername(username: string, password: string, provider: Provider): (err: Option<string>)
    ensures err.None? <==> provider(Credentials(AuthEmail(username), password)).None?
    ensures err.Some? ==> err == provider(Credentials(AuthEmail(username), password))
  {
    provider(Credentials(AuthEmail(username), password))
  }

  /** `signUpWithUsername`: register at the same derived address; the name and
      contact e-mail travel only as account metadata. */
  function SignUpCredentials(username: string, password: string): (c: Credentials)
    ensures c.email == AuthEmail(username) && c.password == password
  {
    Credentials(AuthEmail(username), password)
  }

  /** Signing up and signing in with one username address the same account. */
  lemma SignUpThenSignInSameAccount(username: string, password: string, provider: Provider)
    ensures SignInWithUsername(username, password, provider) == provider(SignUpCredentials(username, password))
  {
  }

  /** `refreshProfile`: without a user the profile is cleared; otherwise it is
      whatever the profile query returned (null when the query failed). */
  function RefreshProfile(s: AuthState, fetched: Option<Profile>): (r: AuthState)
    ensures r.user == s.user
    ensures s.user.None? ==> r.profile.None?
    ensures s.user.Some? ==> r.profile == fetched
  {
    if s.user.None? then s.(profile := None) else s.(profile := fetched)
  }

  /** `signOut`: both the user and the profile are cleared. */
  function SignOut(s: AuthState): (r: AuthState)
    ensures r.user.None? && r.profile.None?
  {
    AuthState(None, None)
  }

  /** After signing out no role predicate holds, and refreshing keeps it so. */
  lemma SignedOutHasNoRole(s: AuthState, fetched: Option<Profile>)
    ensures var out := SignOut(s);
            && RefreshProfile(out, fetched) == out
            && !IsPresident(out.profile) && !IsDepartmentHead(out.profile)
            && !IsGroupLeader(out.profile) && !IsMember(out.profile)
  {
  }
}

=== FILE: dashboard_page.dfy ===
/** The dashboard (src/pages/DashboardPage.tsx): the four figures derived from
    the profile, material and leaderboard lists, and which role's view is shown. */
module DashboardPage {
  import opened Types
  import opened Ordering
  import opened Api
  import opened AuthContext

  datatype Stats = Stats(totalMembers: nat, totalMaterials: nat, myRank: int, myScore: int)

  /** `leaderboard.find(entry => entry.id === profile?.id)`: the first entry
      carrying the profile's id; without a profile nothing matches. */
  function FindEntry(board: seq<LeaderboardEntry>, id: Option<string>): (r: Option<LeaderboardEntry>)
    ensures r.None? <==> id.None? || forall i :: 0 <= i < |board| ==> board[i].id != id.value
    ensures r.Some? ==> exists i :: 0 <= i < |board| && board[i] == r.value && r.value.id == id.value
                          && forall j :: 0 <= j < i ==> board[j].id != id.value
  {
    if id.None? || board == [] then None
    else if board[0].id == id.value then Some(board[0])
    else
      var r := FindEntry(board[1..], id);
      assert r.Some? ==> exists i :: 0 <= i < |board| && board[i] == r.value && r.value.id == id.value
                                     && forall j :: 0 <= j < i ==> board[j].id != id.value by {
        if r.Some? {
          var i :| 0 <= i < |board[1..]| && board[1..][i] == r.value && r.value.id == id.value
                   && forall j :: 0 <= j < i ==> board[1..][j].id != id.value;
          assert board[i + 1] == r.value;
        }
      }
      r
  }

  /** The stats of `loadDashboardData`: the two list lengths, and the rank and
      total of the own entry (`|| 0` when there is none). */
  function DeriveStats(profiles: seq<Profile>, materials: seq<StudyMaterial>,
                       board: seq<LeaderboardEntry>, profileId: Option<string>): (s: Stats)
    ensures s.totalMembers == |profiles| && s.totalMaterials == |materials|
    ensures profileId.None? ==> s.myRank == 0 && s.myScore == 0
    ensures profileId.Some? && (forall i :: 0 <= i < |board| ==> board[i].id != profileId.value) ==>
              s.myRank == 0 && s.myScore == 0
  {
    match FindEntry(board, profileId)
    case None => Stats(|profiles|, |materials|, 0, 0)
    case Some(e) => Stats(|profiles|, |materials|, e.rank, e.totalScore)
  }

  /** The leaderboard view has one row per profile; then the figures shown are
      exactly the own row's rank and total. */
  lemma {:induction false} StatsShowOwnEntry(profiles: seq<Profile>, materials: seq<StudyMaterial>,
                                             board: seq<LeaderboardEntry>, id: string, k: nat)
    requires forall i, j :: 0 <= i < j < |board| ==> board[i].id != board[j].id
    requires k < |board| && board[k].id == id
    ensures DeriveStats(profiles, materials, board, Some(id)).myRank == board[k].rank
    ensures DeriveStats(profiles, materials, board, Some(id)).myScore == board[k].totalScore
  {
    var e := FindEntry(board, Some(id));
    var i :| 0 <= i < |board| && board[i] == e.value && e.value.id == id
             && forall j :: 0 <= j < i ==> board[j].id != id;
    assert i == k;
  }

  /** `loadDashboardData` against the tables: each query with its default page
      size, a failed query read as an empty list. */
  function LoadStats(profiles: seq<Profile>, materials: seq<StudyMaterial>, board: seq<LeaderboardEntry>,
                     profileId: Option<string>, profilesFail: bool, materialsFail: bool, boardFail: bool): (s: Stats)
    ensures s.totalMembers == if profilesFail then 0 else Min(DefaultProfileLimit, |profiles|)
    ensures s.totalMaterials == if materialsFail then 0 else Min(DefaultMaterialLimit, |materials|)
    ensures boardFail ==> s.myRank == 0 && s.myScore == 0
  {
    var ps := if profilesFail then [] else GetAllProfiles(profiles, DefaultProfileLimit, 0);
    var ms := if materialsFail then [] else GetAllStudyMaterials(materials, DefaultMaterialLimit, 0);
    var lb := if boardFail then [] else GetLeaderboard(board, DefaultLeaderboardLimit);
    DeriveStats(ps, ms, lb, profileId)
  }

  /** Only the first hundred leaderboard rows are fetched: a member whose row
      comes later sees rank 0 and score 0. */
  lemma RankBeyondFirstPageShowsZero(profiles: seq<Profile>, materials: seq<StudyMaterial>,
                                     board: seq<LeaderboardEntry>, id: string)
    requires forall i :: 0 <= i < |board| && i < DefaultLeaderboardLimit ==> board[i].id != id
    ensures LoadStats(profiles, materials, board, Some(id), false, false, false).myRank == 0
    ensures LoadStats(profiles, materials, board, Some(id), false, false, false).myScore == 0
  {
    var lb := GetLeaderboard(board, DefaultLeaderboardLimit);
    assert forall i :: 0 <= i < |lb| ==> lb[i].id != id;
  }

  datatype Variant = PresidentView | DepartmentHeadView | GroupLeaderView | MemberView

  /** `getRoleSpecificContent`: the first of president, department head and
      group leader that holds; the member view otherwise, also without a profile. */
  function ViewFor(profile: Option<Profile>): (v: Variant)
    ensures v == PresidentView <==> IsPresident(profile)
    ensures v == DepartmentHeadView <==> IsDepartmentHead(profile)
    ensures v == GroupLeaderView <==> IsGroupLeader(profile)
    ensures v == MemberView <==> profile.None? || IsMember(profile)
  {
    if IsPresident(profile) then PresidentView
    else if IsDepartmentHead(profile) then DepartmentHeadView
    else if IsGroupLeader(profile) then GroupLeaderView
    else MemberView
  }
}

=== FILE: leaderboard_page.dfy ===
/** The leaderboard page (src/pages/LeaderboardPage.tsx): the add-score form
    check and request, and the medal shown for the top three ranks. The
    ranking itself is computed by a database view and is input here. */
module LeaderboardPage {
  import opened Types
  import opened Api

  /** The dialog's fields, as the strings the inputs hold. */
  datatype ScoreForm = ScoreForm(departmentId: string, score: string, reason: string)

  /** `handleAddScore`'s request: nothing unless the member, department and
      score fields are all filled. `parsed` is the number the score text reads as. */
  function ScoreRequest(selectedUserId: string, form: ScoreForm, parsed: int): (r: Option<CreateScoreInput>)
    ensures r.None? <==> selectedUserId == "" || form.departmentId == "" || form.score == ""
    ensures r.Some? ==>
              && r.value.userId == selectedUserId && r.value.departmentId == form.departmentId
              && r.value.score == parsed && r.value.reason == NullIfEmpty(form.reason)
  {
    if selectedUserId == "" || form.departmentId == "" || form.score == "" then None
    else Some(CreateScoreInput(selectedUserId, form.departmentId, parsed, NullIfEmpty(form.reason)))
  }

  /** Submitting the dialog against the score table: a refused form or a failed
      insert leaves the table as it was; an accepted one adds exactly one score
      by the signed-in user. */
  function SubmitScore(scores: seq<Score>, selectedUserId: string, form: ScoreForm, parsed: int,
                       user: Option<string>, freshId: string, now: int, fails: bool): (r: seq<Score>)
    ensures ScoreRequest(selectedUserId, form, parsed).None? || fails ==> r == scores
    ensures ScoreRequest(selectedUserId, form, parsed).Some? && !fails ==>
              && |r| == |scores| + 1 && r[..|scores|] == scores
              && r[|scores|].userId == selectedUserId && r[|scores|].departmentId == form.departmentId
              && r[|scores|].createdBy == user
  {
    match ScoreRequest(selectedUserId, form, parsed)
    case None => scores
    case Some(input) => CreateScore(scores, input, user, freshId, now, fails).0
  }

  datatype RankIcon = Trophy | Medal | Award | NoIcon

  /** `getRankIcon`: a trophy, medal and award for ranks 1 to 3, nothing below. */
  function GetRankIcon(rank: int): (icon: RankIcon)
    ensures icon == NoIcon <==> rank < 1 || rank > 3
    ensures icon != NoIcon ==> (icon == Trophy <==> rank == 1) && (icon == Medal <==> rank == 2) && (icon == Award <==> rank == 3)
  {
    if rank == 1 then Trophy
    else if rank == 2 then Medal
    else if rank == 3 then Award
    else NoIcon
  }

  /** The three medals are distinct. */
  lemma RankIconsDistinct(a: int, b: int)
    requires 1 <= a <= 3 && 1 <= b <= 3 && a != b
    ensures GetRankIcon(a) != GetRankIcon(b)
  {
  }
}

=== FILE: main_layout.dfy ===
/** The page frame (src/components/layouts/MainLayout.tsx): the avatar
    initials, the role badge and the navigation items. */
module MainLayout {
  import opened Types
  import opened Text
  import opened AuthContext

  /** `name.split(' ')`: the segments between spaces, empty ones included. */
  function Split(s: string): (r: seq<string>)
    ensures |r| >= 1
  {
    if s == [] then [""]
    else
      var rest := Split(s[1..]);
      if s[0] == ' ' then [""] + rest
      else [[s[0]] + rest[0]] + rest[1..]
  }

  /** `.map(n => n[0]).join('')`: the first character of each segment; an empty
      segment yields `undefined`, which `join` prints as nothing. */
  function Heads(segments: seq<string>): string {
    if segments == [] then ""
    else (if segments[0] == "" then "" else [segments[0][0]]) + Heads(segments[1..])
  }

  /** The reference reading: the characters that begin a word, i.e. that are
      not a space and follow a space or the start (`atStart`). */
  function WordStarts(s: string, atStart: bool): string {
    if s == [] then ""
    else (if s[0] != ' ' && atStart then [s[0]] else "") + WordStarts(s[1..], s[0] == ' ')
  }

  /** Splitting and taking heads picks exactly the word-initial characters. */
  lemma {:induction false} HeadsOfSplit(s: string)
    ensures Heads(Split(s)) == WordStarts(s, true)
    ensures Heads(Split(s)[1..]) == WordStarts(s, false)
  {
    if s != [] {
      HeadsOfSplit(s[1..]);
      var rest := Split(s[1..]);
      if s[0] == ' ' {
        assert Split(s) == [""] + rest;
        assert Split(s)[1..] == rest;
      } else {
        var first := [s[0]] + rest[0];
        assert Split(s) == [first] + rest[1..];
        assert Split(s)[1..] == rest[1..];
        assert Heads(Split(s)) == [s[0]] + Heads(rest[1..]);
      }
    }
  }

  /** `getInitials`: "U" for a missing or empty name, otherwise the first two
      word-initial characters upper-cased. */
  function GetInitials(name: Option<string>): (r: string)
    ensures name.None? || name == Some("") ==> r == "U"
    ensures |r| <= 2
    ensures name.Some? && name.value != "" ==>
              var starts := WordStarts(name.value, true);
              |r| == (if |starts| < 2 then |starts| else 2)
              && forall i :: 0 <= i < |r| ==> r[i] == UpperChar(starts[i])
  {
    if name.None? || name.value == "" then "U"
    else
      var joined := Upper(Heads(Split(name.value)));
      HeadsOfSplit(name.value);
      if |joined| <= 2 then joined else joined[..2]
  }

  /** A name of spaces only has no word starts: its initials are empty, not "U". */
  lemma BlankNameHasNoInitials(n: nat)
    ensures GetInitials(Some(seq(n + 1, _ => ' '))) == ""
  {
    var s := seq(n + 1, _ => ' ');
    BlankWordStarts(s, true);
  }

  lemma {:induction false} BlankWordStarts(s: string, atStart: bool)
    requires forall i :: 0 <= i < |s| ==> s[i] == ' '
    ensures WordStarts(s, atStart) == ""
  {
    if s != [] {
      BlankWordStarts(s[1..], true);
    }
  }

  /** `getRoleBadge` of the frame: president, then head, then leader, else member. */
  function RoleBadge(profile: Option<Profile>): (badge: string)
    ensures profile.Some? ==> badge == RoleLabel(profile.value.role)
    ensures profile.None? ==> badge == "Member"
  {
    if IsPresident(profile) then "President"
    else if IsDepartmentHead(profile) then "Department Head"
    else if IsGroupLeader(profile) then "Group Leader"
    else "Member"
  }

  datatype NavItem = NavItem(title: string, path: string)

  const BaseNavigation: seq<NavItem> := [
    NavItem("Dashboard", "/dashboard"),
    NavItem("Study Materials", "/materials"),
    NavItem("Leaderboard", "/leaderboard"),
    NavItem("Members", "/members")
  ]

  const RoleManagementItem: NavItem := NavItem("Role Management", "/admin/roles")

  /** The navigation: the four base items, then Role Management for a president only. */
  function NavigationItems(profile: Option<Profile>): (items: seq<NavItem>)
    ensures |items| >= 4 && items[..4] == BaseNavigation
    ensures |items| == (if IsPresident(profile) then 5 else 4)
    ensures RoleManagementItem in items <==> IsPresident(profile)
  {
    if IsPresident(profile) then BaseNavigation + [RoleManagementItem] else BaseNavigation
  }
}

=== FILE: members_page.dfy ===
/** The member directory page (src/pages/MembersPage.tsx): the chained search,
    group and role filters, and the role badge. */
module MembersPage {
  import opened Types
  import opened Text
  import opened Ordering

  /** The value of a select that switches its filter off. */
  const All: string := "all"

  /** `username` or `full_name` contains the search term, both lower-cased. */
  predicate SearchHit(m: Profile, term: string) {
    || Contains(Lower(m.username), Lower(term))
    || (m.fullName.Some? && Contains(Lower(m.fullName.value), Lower(term)))
  }

  /** The three tests a listed member passes, each off when its control is empty / `all`. */
  predicate Matches(m: Profile, term: string, group: string, role: string) {
    && (term == "" || SearchHit(m, term))
    && (group == All || m.groupId == Some(group))
    && (role == All || RoleName(m.role) == role)
  }

  /** `filterMembers`: search, then group, then role, each an `Array.filter`. */
  function FilterMembers(members: seq<Profile>, term: string, group: string, role: string): (r: seq<Profile>)
    ensures IsSubsequence(r, members)
    ensures forall m :: m in r ==> Matches(m, term, group, role)
    ensures forall m :: m in members && Matches(m, term, group, role) ==> m in r
    ensures term == "" && group == All && role == All ==> r == members
  {
    var searched := if term != "" then Filter(members, (m: Profile) => SearchHit(m, term)) else members;
    var grouped := if group != All then Filter(searched, (m: Profile) => m.groupId == Some(group)) else searched;
    var r := if role != All then Filter(grouped, (m: Profile) => RoleName(m.role) == role) else grouped;
    FilterMembersIsOneFilter(members, term, group, role);
    // Each stage keeps the order of the one before it.
    SelectionIsSubsequence(members, (m: Profile) => SearchHit(m, term), term != "");
    SelectionIsSubsequence(searched, (m: Profile) => m.groupId == Some(group), group != All);
    SelectionIsSubsequence(grouped, (m: Profile) => RoleName(m.role) == role, role != All);
    SubsequenceTrans(grouped, searched, members);
    SubsequenceTrans(r, grouped, members);
    FilterMembership(members, (m: Profile) => Matches(m, term, group, role));
    assert term == "" && group == All && role == All ==> r == members by {
      if term == "" && group == All && role == All {
        FilterAll(members, (m: Profile) => Matches(m, term, group, role));
      }
    }
    r
  }

  /** The three chained filters select exactly what one filter by `Matches` selects. */
  lemma {:induction false} FilterMembersIsOneFilter(members: seq<Profile>, term: string, group: string, role: string)
    ensures
      var searched := if term != "" then Filter(members, (m: Profile) => SearchHit(m, term)) else members;
      var grouped := if group != All then Filter(searched, (m: Profile) => m.groupId == Some(group)) else searched;
      var r := if role != All then Filter(grouped, (m: Profile) => RoleName(m.role) == role) else grouped;
      r == Filter(members, (m: Profile) => Matches(m, term, group, role))
  {
    var f1 := (m: Profile) => term == "" || SearchHit(m, term);
    var f2 := (m: Profile) => group == All || m.groupId == Some(group);
    var f3 := (m: Profile) => role == All || RoleName(m.role) == role;
    var f12 := (m: Profile) => f1(m) && f2(m);
    var all := (m: Profile) => Matches(m, term, group, role);
    var searched := if term != "" then Filter(members, (m: Profile) => SearchHit(m, term)) else members;
    var grouped := if group != All then Filter(searched, (m: Profile) => m.groupId == Some(group)) else searched;
    var r := if role != All then Filter(grouped, (m: Profile) => RoleName(m.role) == role) else grouped;
    SameFilter(members, (m: Profile) => SearchHit(m, term), f1, term != "");
    assert searched == Filter(members, f1);
    SameFilter(searched, (m: Profile) => m.groupId == Some(group), f2, group != All);
    assert grouped == Filter(Filter(members, f1), f2);
    FilterFilter(members, f1, f2, f12);
    SameFilter(grouped, (m: Profile) => RoleName(m.role) == role, f3, role != All);
    assert r == Filter(Filter(members, f12), f3);
    FilterFilter(members, f12, f3, all);
  }

  /** A stage that is switched on filters, one that is off passes its input on;
      either way the order is kept. */
  lemma SelectionIsSubsequence(s: seq<Profile>, f: Profile -> bool, on: bool)
    ensures IsSubsequence(if on then Filter(s, f) else s, s)
  {
    if on {
      FilterIsSubsequence(s, f);
    } else {
      IsSubsequenceRefl(s);
    }
  }

  /** A filter switched off by its control is the filter that keeps everything. */
  lemma SameFilter(s: seq<Profile>, f: Profile -> bool, g: Profile -> bool, on: bool)
    requires forall m :: g(m) == (!on || f(m))
    ensures (if on then Filter(s, f) else s) == Filter(s, g)
  {
    if on {
      FilterExt(s, f, g);
    } else {
      FilterAll(s, g);
    }
  }

  /** `getRoleBadge` of this page: a label for each of the four roles, any
      other string shown as it is. */
  function RoleBadge(role: string): (badge: string)
    ensures ParseRole(role).Some? ==> badge == RoleLabel(ParseRole(role).value)
    ensures ParseRole(role).None? ==> badge == role
  {
    if role == "president" then "President"
    else if role == "department_head" then "Department Head"
    else if role == "group_leader" then "Group Leader"
    else if role == "member" then "Member"
    else role
  }
}

=== FILE: ordering.dfy ===
/** The query shapes the data-access layer asks the database for: filtering,
    ordering newest-first, `limit` and `range` paging. */
module Ordering {

  /** Keys never increase along `s`. */
  predicate SortedDesc<T>(s: seq<T>, key: T -> int) {
    forall i, j :: 0 <= i < j < |s| ==> key(s[i]) >= key(s[j])
  }

  /** Places `x` before the first element with a strictly smaller key. */
  function InsertDesc<T(==)>(x: T, s: seq<T>, key: T -> int): (r: seq<T>)
    ensures multiset(r) == multiset(s) + multiset{x}
    ensures |r| == |s| + 1
    ensures r[0] == x || (s != [] && r[0] == s[0])
  {
    if s == [] then [x]
    else if key(x) >= key(s[0]) then [x] + s
    else
      var rest := InsertDesc(x, s[1..], key);
      assert s == [s[0]] + s[1..];
      assert multiset([s[0]] + rest) == multiset{s[0]} + multiset(rest);
      [s[0]] + rest
  }

  /** Inserting into an ordered sequence keeps it ordered. */
  lemma {:induction false} InsertDescSorted<T>(x: T, s: seq<T>, key: T -> int)
    requires SortedDesc(s, key)
    ensures SortedDesc(InsertDesc(x, s, key), key)
  {
    if s != [] {
      if key(x) >= key(s[0]) {
        ConsSorted(x, s, key);
      } else {
        SortedTail(s, key);
        InsertDescSorted(x, s[1..], key);
        ConsSorted(s[0], InsertDesc(x, s[1..], key), key);
      }
    }
  }

  /** Dropping the first element keeps a sequence ordered. */
  lemma SortedTail<T>(s: seq<T>, key: T -> int)
    requires SortedDesc(s, key) && s != []
    ensures SortedDesc(s[1..], key)
  {
    forall i, j | 0 <= i < j < |s[1..]| ensures key(s[1..][i]) >= key(s[1..][j]) {
      assert s[1..][i] == s[i + 1] && s[1..][j] == s[j + 1];
    }
  }

  /** An element no smaller than the head of an ordered sequence may be put in front. */
  lemma ConsSorted<T>(a: T, s: seq<T>, key: T -> int)
    requires SortedDesc(s, key)
    requires s != [] ==> key(a) >= key(s[0])
    ensures SortedDesc([a] + s, key)
  {
    var r := [a] + s;
    forall i, j | 0 <= i < j < |r| ensures key(r[i]) >= key(r[j]) {
      assert r[j] == s[j - 1];
      if i > 0 {
        assert r[i] == s[i - 1];
      } else if j > 1 {
        assert key(s[0]) >= key(s[j - 1]);
      }
    }
  }

  /** `order(created_at, { ascending: false })`: a stable insertion sort. */
  function SortDesc<T(==)>(s: seq<T>, key: T -> int): (r: seq<T>)
    ensures SortedDesc(r, key)
    ensures multiset(r) == multiset(s)
    ensures |r| == |s|
  {
    if s == [] then []
    else
      assert s == [s[0]] + s[1..];
      InsertDescSorted(s[0], SortDesc(s[1..], key), key);
      InsertDesc(s[0], SortDesc(s[1..], key), key)
  }

  /** An already ordered sequence comes back unchanged. */
  lemma {:induction false} SortDescOfSorted<T>(s: seq<T>, key: T -> int)
    requires SortedDesc(s, key)
    ensures SortDesc(s, key) == s
  {
    if s != [] {
      SortDescOfSorted(s[1..], key);
      assert s == [s[0]] + s[1..];
    }
  }

  function Min(a: nat, b: nat): nat {
    if a <= b then a else b
  }

  /** `.limit(n)`: the first `n` elements, or all of them when there are fewer. */
  function Take<T>(s: seq<T>, n: nat): (r: seq<T>)
    ensures |r| == Min(n, |s|)
    ensures forall i :: 0 <= i < |r| ==> r[i] == s[i]
  {
    s[..Min(n, |s|)]
  }

  /** `.range(offset, offset + limit - 1)`: up to `limit` elements starting at `offset`. */
  function Page<T>(s: seq<T>, offset: nat, limit: nat): (r: seq<T>)
    ensures |r| == if offset <= |s| then Min(limit, |s| - offset) else 0
    ensures forall i :: 0 <= i < |r| ==> r[i] == s[offset + i]
  {
    if offset <= |s| then Take(s[offset..], limit) else []
  }

  /** In an ordered sequence, an earlier slice holds no key smaller than a
      key of a later slice. */
  lemma SlicesOrdered<T>(s: seq<T>, a: nat, b: nat, c: nat, d: nat, key: T -> int)
    requires SortedDesc(s, key)
    requires a <= b <= c <= d <= |s|
    ensures forall x, y :: x in s[a..b] && y in s[c..d] ==> key(y) <= key(x)
  {
    forall x, y | x in s[a..b] && y in s[c..d] ensures key(y) <= key(x) {
      var i :| a <= i < b && s[i] == x;
      var j :| c <= j < d && s[j] == y;
    }
  }

  /** A page of an ordered sequence is a window: it splits the sequence into the
      elements before it, none smaller than an element on it, and those after
      it, none larger. */
  lemma PageWindow<T>(s: seq<T>, offset: nat, limit: nat, key: T -> int)
    requires SortedDesc(s, key)
    ensures var p := Page(s, offset, limit);
            var o := Min(offset, |s|);
            && s == s[..o] + p + s[o + |p|..]
            && (forall x, y :: x in s[..o] && y in p ==> key(y) <= key(x))
            && (forall y, z :: y in p && z in s[o + |p|..] ==> key(z) <= key(y))
  {
    var p := Page(s, offset, limit);
    var o := Min(offset, |s|);
    var e := o + |p|;
    assert p == s[o..e];
    assert s[..o] == s[0..o] && s[e..] == s[e..|s|];
    assert s == s[..o] + p + s[e..];
    SlicesOrdered(s, 0, o, o, e, key);
    SlicesOrdered(s, o, e, e, |s|, key);
  }

  /** Taking a prefix of an ordered sequence keeps the largest keys: every
      element left out has a key no larger than any element kept. */
  lemma TakeKeepsLargest<T>(s: seq<T>, n: nat, key: T -> int)
    requires SortedDesc(s, key)
    ensures forall x, y :: x in Take(s, n) && y in multiset(s) - multiset(Take(s, n)) ==> key(y) <= key(x)
  {
    var k := Min(n, |s|);
    var t := Take(s, n);
    var rest := s[k..];
    assert s == t + rest;
    assert multiset(s) - multiset(t) == multiset(rest);
    forall x, y | x in t && y in multiset(s) - multiset(t)
      ensures key(y) <= key(x)
    {
      assert y in rest;
      var i :| 0 <= i < |t| && t[i] == x;
      var j :| 0 <= j < |rest| && rest[j] == y;
      assert s[i] == x && s[k + j] == y;
    }
  }

  /** `Array.prototype.filter`: the elements satisfying `keep`, in order. */
  function Filter<T>(s: seq<T>, keep: T -> bool): (r: seq<T>)
    ensures |r| <= |s|
  {
    if s == [] then []
    else if keep(s[0]) then [s[0]] + Filter(s[1..], keep)
    else Filter(s[1..], keep)
  }

  /** The filtered sequence holds exactly the elements that pass the test. */
  lemma {:induction false} FilterMembership<T>(s: seq<T>, keep: T -> bool)
    ensures forall x :: x in Filter(s, keep) <==> x in s && keep(x)
  {
    if s != [] {
      FilterMembership(s[1..], keep);
      assert s == [s[0]] + s[1..];
    }
  }

  /** `a` is `b` with some elements dropped and the rest kept in order. */
  predicate IsSubsequence<T(==)>(a: seq<T>, b: seq<T>)
    decreases |b|
  {
    if a == [] then true
    else if b == [] then false
    else if a[0] == b[0] then IsSubsequence(a[1..], b[1..])
    else IsSubsequence(a, b[1..])
  }

  lemma {:induction false} IsSubsequenceRefl<T>(s: seq<T>)
    ensures IsSubsequence(s, s)
  {
    if s != [] {
      IsSubsequenceRefl(s[1..]);
    }
  }

  /** Filtering keeps the survivors in their original order. */
  lemma {:induction false} FilterIsSubsequence<T>(s: seq<T>, keep: T -> bool)
    ensures IsSubsequence(Filter(s, keep), s)
  {
    if s != [] {
      FilterIsSubsequence(s[1..], keep);
      var rest := Filter(s[1..], keep);
      if keep(s[0]) {
        assert Filter(s, keep) == [s[0]] + rest;
        assert ([s[0]] + rest)[1..] == rest;
      } else {
        SubsequenceSkip(rest, s);
      }
    }
  }

  /** A subsequence of the tail is a subsequence of the whole. */
  lemma {:induction false} SubsequenceSkip<T>(a: seq<T>, b: seq<T>)
    requires b != []
    requires IsSubsequence(a, b[1..])
    ensures IsSubsequence(a, b)
    decreases |b|, 1
  {
    if a != [] && a[0] == b[0] {
      SubsequenceDropHead(a, b[1..]);
    }
  }

  /** Dropping the first element of a subsequence leaves a subsequence. */
  lemma {:induction false} SubsequenceDropHead<T>(a: seq<T>, b: seq<T>)
    requires a != []
    requires IsSubsequence(a, b)
    ensures IsSubsequence(a[1..], b)
    decreases |b|, 2
  {
    assert b != [];
    if a[0] == b[0] {
      if a[1..] != [] {
        SubsequenceSkip(a[1..], b);
      }
    } else {
      SubsequenceDropHead(a, b[1..]);
      SubsequenceSkip(a[1..], b);
    }
  }

  /** Subsequence is transitive. */
  lemma {:induction false} SubsequenceTrans<T>(a: seq<T>, b: seq<T>, c: seq<T>)
    requires IsSubsequence(a, b) && IsSubsequence(b, c)
    ensures IsSubsequence(a, c)
    decreases |c|
  {
    if a != [] {
      assert b != [] && c != [];
      if b[0] == c[0] {
        if a[0] == b[0] {
          SubsequenceTrans(a[1..], b[1..], c[1..]);
        } else {
          SubsequenceTrans(a, b[1..], c[1..]);
          SubsequenceSkip(a, c);
        }
      } else {
        SubsequenceTrans(a, b, c[1..]);
        SubsequenceSkip(a, c);
      }
    }
  }

  /** Filtering twice is filtering once by both tests. */
  lemma {:induction false} FilterFilter<T>(s: seq<T>, f: T -> bool, g: T -> bool, fg: T -> bool)
    requires forall x :: fg(x) == (f(x) && g(x))
    ensures Filter(Filter(s, f), g) == Filter(s, fg)
  {
    if s != [] {
      FilterFilter(s[1..], f, g, fg);
      if f(s[0]) {
        assert ([s[0]] + Filter(s[1..], f))[1..] == Filter(s[1..], f);
      }
    }
  }

  /** Filtering with a test every element passes changes nothing. */
  lemma {:induction false} FilterAll<T>(s: seq<T>, keep: T -> bool)
    requires forall x :: x in s ==> keep(x)
    ensures Filter(s, keep) == s
  {
    if s != [] {
      FilterAll(s[1..], keep);
      assert s == [s[0]] + s[1..];
    }
  }

  /** Filters with the same test give the same result. */
  lemma {:induction false} FilterExt<T>(s: seq<T>, f: T -> bool, g: T -> bool)
    requires forall x :: f(x) == g(x)
    ensures Filter(s, f) == Filter(s, g)
  {
    if s != [] {
      FilterExt(s[1..], f, g);
    }
  }
}

=== FILE: profile_page.dfy ===
/** The member's own profile page (src/pages/ProfilePage.tsx): the one-time
    group change guard of `handleSave` and the update it sends. */
module ProfilePage {
  import opened Types
  import opened Api

  /** The form fields; an unset value is the empty string. */
  datatype ProfileForm = ProfileForm(fullName: string, email: string, groupId: string)

  datatype SaveOutcome =
    | NoProfile                          // nobody signed in: nothing happens
    | GroupLocked                        // the one allowed change is used up
    | Send(userId: string, update: ProfileUpdate)

  /** The form as `loadData` fills it from the profile. */
  function LoadForm(p: Profile): (f: ProfileForm)
    ensures NullIfEmpty(f.fullName) == p.fullName || p.fullName == Some("")
    ensures NullIfEmpty(f.email) == p.email || p.email == Some("")
    ensures NullIfEmpty(f.groupId) == p.groupId || p.groupId == Some("")
  {
    ProfileForm(EmptyIfNull(p.fullName), EmptyIfNull(p.email), EmptyIfNull(p.groupId))
  }

  /** `formData.group_id !== profile.group_id`: a string against a string or
      null, so a profile without a group always counts as changing. */
  function IsGroupChanging(form: ProfileForm, p: Profile): (changing: bool)
    ensures p.groupId.None? ==> changing
    ensures p.groupId.Some? ==> (changing <==> form.groupId != p.groupId.value)
  {
    match p.groupId
    case None => true
    case Some(g) => form.groupId != g
  }

  /** The update record: name and e-mail always (empty as null), the group
      only when it is changing (empty as null). */
  function BuildUpdate(form: ProfileForm, changing: bool): (u: ProfileUpdate)
    ensures u.fullName == NullIfEmpty(form.fullName) && u.email == NullIfEmpty(form.email)
    ensures u.groupId.Some? <==> changing
    ensures changing ==> u.groupId == Some(NullIfEmpty(form.groupId))
  {
    ProfileUpdate(
      NullIfEmpty(form.fullName), NullIfEmpty(form.email),
      if changing then Some(NullIfEmpty(form.groupId)) else None)
  }

  /** `handleSave` as written. */
  function HandleSave(profile: Option<Profile>, form: ProfileForm): (r: SaveOutcome)
    ensures profile.None? <==> r == NoProfile
    ensures r == GroupLocked <==>
              profile.Some? && IsGroupChanging(form, profile.value) && profile.value.groupChangeCount >= 1
    ensures r.Send? ==> r.userId == profile.value.id
    ensures r.Send? ==> (r.update.groupId.Some? <==> IsGroupChanging(form, profile.value))
    ensures r.Send? ==> r.update.fullName == NullIfEmpty(form.fullName) && r.update.email == NullIfEmpty(form.email)
    ensures r.Send? ==> r.update == BuildUpdate(form, IsGroupChanging(form, profile.value))
  {
    match profile
    case None => NoProfile
    case Some(p) =>
      var changing := IsGroupChanging(form, p);
      if changing && p.groupChangeCount >= 1 then GroupLocked
      else Send(p.id, BuildUpdate(form, changing))
  }

  /** Saving never writes the change counter or any column the form does not
      hold: role, department and counter of every row are kept. */
  lemma SaveKeepsCounterAndRole(ps: seq<Profile>, profile: Option<Profile>, form: ProfileForm, fails: bool)
    requires HandleSave(profile, form).Send?
    ensures var o := HandleSave(profile, form);
            var ps' := UpdateProfile(ps, o.userId, o.update, fails).0;
            forall i :: 0 <= i < |ps| ==>
              ps'[i].groupChangeCount == ps[i].groupChangeCount && ps'[i].role == ps[i].role
              && ps'[i].departmentId == ps[i].departmentId
  {
  }

  /** Counterexample to the raw comparison: a member without a group whose one
      change is used up cannot save even a new name, although the group field
      was never touched. */
  lemma GrouplessMemberLockedOut(p: Profile, newName: string)
    requires p.groupId.None? && p.groupChangeCount >= 1
    ensures HandleSave(Some(p), LoadForm(p).(fullName := newName)) == GroupLocked
  {
  }

  /** The comparison evidently intended: the form's empty string means null. */
  function IsGroupChangingNormalised(form: ProfileForm, p: Profile): (changing: bool)
    ensures p.groupId.None? ==> (changing <==> form.groupId != "")
    ensures p.groupId.Some? && p.groupId.value != "" ==> (changing <==> form.groupId != p.groupId.value)
    ensures p.groupId != Some("") && form.groupId == EmptyIfNull(p.groupId) ==> !changing
  {
    NullIfEmpty(form.groupId) != p.groupId
  }

  /** `handleSave` with the intended comparison. */
  function HandleSaveNormalised(profile: Option<Profile>, form: ProfileForm): (r: SaveOutcome)
    ensures profile.None? <==> r == NoProfile
    ensures r == GroupLocked <==>
              profile.Some? && NullIfEmpty(form.groupId) != profile.value.groupId && profile.value.groupChangeCount >= 1
    ensures r.Send? ==> r.userId == profile.value.id
    ensures r.Send? ==> (r.update.groupId.Some? <==> NullIfEmpty(form.groupId) != profile.value.groupId)
    ensures r.Send? ==> r.update == BuildUpdate(form, IsGroupChangingNormalised(form, profile.value))
  {
    match profile
    case None => NoProfile
    case Some(p) =>
      var changing := IsGroupChangingNormalised(form, p);
      if changing && p.groupChangeCount >= 1 then GroupLocked
      else Send(p.id, BuildUpdate(form, changing))
  }

  /** With the intended comparison a form whose group field is left as loaded
      is never locked and never sends a group, whatever else is edited. */
  lemma UntouchedGroupNeverLocked(p: Profile, fullName: string, email: string)
    requires p.groupId != Some("")
    ensures var o := HandleSaveNormalised(Some(p), LoadForm(p).(fullName := fullName, email := email));
            o.Send? && o.update.groupId.None?
  {
  }

  /** The two comparisons agree whenever the profile has a group. */
  lemma ComparisonsAgreeWithGroup(form: ProfileForm, p: Profile)
    requires p.groupId.Some? && p.groupId.value != ""
    ensures IsGroupChanging(form, p) == IsGroupChangingNormalised(form, p)
  {
  }
}

=== FILE: role_management.dfy ===
/** The president's role-management page (src/pages/RoleManagementPage.tsx):
    the checks `handleAssignRole` runs against its member snapshot before it
    calls `assignRole`, and the hierarchy invariant those checks protect. */
module RoleManagement {
  import opened Types
  import opened Ordering
  import opened Api

  /** The roles the dialog offers; `president` is not among them. */
  const RoleChoices: seq<UserRole> := [Member, GroupLeader, DepartmentHead]

  /** The dialog's fields; `role` is `None` while nothing is selected. */
  datatype RoleForm = RoleForm(role: Option<UserRole>, departmentId: string, reason: string)

  datatype Rejection = MissingFields | MissingDepartment | DepartmentHasHead | GroupHasLeader

  datatype Verdict = Accept | Reject(why: Rejection)

  /** The result of pressing "Assign Role". */
  datatype Outcome = Refused(why: Rejection) | Sent(reply: Reply<Profile>)

  /** The members the page lists and validates against: every loaded profile
      except presidents, in loaded order. */
  function Snapshot(loaded: seq<Profile>): (r: seq<Profile>)
    ensures forall m :: m in r <==> m in loaded && m.role != President
    ensures IsSubsequence(r, loaded)
  {
    FilterIsSubsequence(loaded, (m: Profile) => m.role != President);
    FilterMembership(loaded, (m: Profile) => m.role != President);
    Filter(loaded, (m: Profile) => m.role != President)
  }

  /** The form the "Manage" button opens for a member: its current role and
      department, and no reason yet. */
  function OpenForm(m: Profile): (f: RoleForm)
    ensures f.role == Some(m.role)
    ensures f.reason == ""
    ensures NullIfEmpty(f.departmentId) == m.departmentId || m.departmentId == Some("")
  {
    RoleForm(Some(m.role), EmptyIfNull(m.departmentId), "")
  }

  /** Some member other than `subject` heads department `dept`. */
  predicate HeadTaken(members: seq<Profile>, subject: Profile, dept: string) {
    exists m :: m in members && m.role == DepartmentHead && m.departmentId == Some(dept) && m.id != subject.id
  }

  /** The subject's group is set (a non-empty string). */
  predicate HasGroup(p: Profile) {
    p.groupId.Some? && p.groupId.value != ""
  }

  /** Some member other than `subject` leads the subject's group. */
  predicate LeaderTaken(members: seq<Profile>, subject: Profile)
    requires HasGroup(subject)
  {
    exists m :: m in members && m.role == GroupLeader && m.groupId == subject.groupId && m.id != subject.id
  }

  /** The validation chain of `handleAssignRole`, first failing check wins. */
  function Validate(members: seq<Profile>, selected: Option<Profile>, form: RoleForm): (v: Verdict)
    ensures v == Reject(MissingFields) <==> selected.None? || form.role.None?
    ensures v == Reject(MissingDepartment) <==>
              selected.Some? && form.role == Some(DepartmentHead) && form.departmentId == ""
    ensures v == Reject(DepartmentHasHead) <==>
              && selected.Some? && form.role == Some(DepartmentHead) && form.departmentId != ""
              && exists m :: m in members && m.role == DepartmentHead && m.departmentId == Some(form.departmentId)
                             && m.id != selected.value.id
    ensures v == Reject(GroupHasLeader) <==>
              && selected.Some? && form.role == Some(GroupLeader) && HasGroup(selected.value)
              && exists m :: m in members && m.role == GroupLeader && m.groupId == selected.value.groupId
                             && m.id != selected.value.id
    // A group leader without a group passes: no conflict check runs.
    ensures selected.Some? && form.role == Some(GroupLeader) && !HasGroup(selected.value) ==> v == Accept
  {
    if selected.None? || form.role.None? then Reject(MissingFields)
    else
      var subject := selected.value;
      var role := form.role.value;
      if role == DepartmentHead && form.departmentId == "" then Reject(MissingDepartment)
      else if role == DepartmentHead && HeadTaken(members, subject, form.departmentId) then Reject(DepartmentHasHead)
      else if role == GroupLeader && HasGroup(subject) && LeaderTaken(members, subject) then Reject(GroupHasLeader)
      else Accept
  }

  /** `handleAssignRole`: validate, and only when every check passes send
      `assignRole` with empty form fields as absent. */
  function HandleAssignRole(store: Store, members: seq<Profile>, selected: Option<Profile>, form: RoleForm, env: Env): (r: (Store, Outcome))
    ensures r.1.Refused? <==> Validate(members, selected, form).Reject?
    ensures r.1.Refused? ==> r.0 == store && r.1.why == Validate(members, selected, form).why
    ensures r.1.Sent? ==> (r.0, r.1.reply) == AssignRole(store, Request(selected.value, form), env)
  {
    var v := Validate(members, selected, form);
    if v.Reject? then (store, Refused(v.why))
    else
      var (s, reply) := AssignRole(store, Request(selected.value, form), env);
      (s, Sent(reply))
  }

  /** The `assignRole` request the page sends: empty department and reason are absent. */
  function Request(subject: Profile, form: RoleForm): AssignRoleInput
    requires form.role.Some?
  {
    AssignRoleInput(subject.id, form.role.value, NullIfEmpty(form.departmentId), NullIfEmpty(form.reason))
  }

  /** The reason `handleRemoveRole` records. */
  const RemovalReason: string := "Role removed by President"

  /** `handleRemoveRole`: nothing unless the president confirms; then the
      member is demoted through `removeRole` with the fixed reason. */
  function HandleRemoveRole(store: Store, member: Profile, confirmed: bool, env: Env): (r: (Store, Option<Reply<Profile>>))
    ensures !confirmed ==> r.0 == store && r.1.None?
    ensures confirmed ==> r.1.Some? && (r.0, r.1.value) == RemoveRole(store, member.id, Some(RemovalReason), env)
    ensures confirmed && |r.0.logs| == |store.logs| + 1 ==> r.0.logs[|store.logs|].reason == Some(RemovalReason)
  {
    if !confirmed then (store, None)
    else
      var (s, reply) := RemoveRole(store, member.id, Some(RemovalReason), env);
      (s, Some(reply))
  }

  /** A removal never breaks the hierarchy invariant: the demoted row heads
      and leads nothing. */
  lemma {:induction false} RemovalKeepsLeadershipUnique(store: Store, member: Profile, confirmed: bool, env: Env)
    requires UniqueIds(store.profiles) && LeadershipUnique(store.profiles)
    ensures LeadershipUnique(HandleRemoveRole(store, member, confirmed, env).0.profiles)
  {
    var ps := store.profiles;
    var ps' := HandleRemoveRole(store, member, confirmed, env).0.profiles;
    if confirmed && !env.faults.updateFails && exists i :: 0 <= i < |ps| && ps[i].id == member.id {
      var k :| 0 <= k < |ps| && ps[k].id == member.id;
      forall i | 0 <= i < |ps| && i != k ensures ps'[i] == ps[i] {
        assert ps[i].id != member.id;
      }
      assert ps'[k].role == Member;
      OneRowChangeKeepsHeads(ps, ps', k);
      OneRowChangeKeepsLeaders(ps, ps', k);
    } else {
      assert forall i :: 0 <= i < |ps| ==> ps'[i] == ps[i];
    }
  }

  /** `getRoleBadge` of this page: labels for the three manageable roles, any
      other string (including `president`) shown as it is. */
  function RoleBadge(role: string): (badge: string)
    ensures forall r: UserRole :: r != President && RoleName(r) == role ==> badge == RoleLabel(r)
    ensures ParseRole(role).None? || ParseRole(role) == Some(President) ==> badge == role
  {
    if role == "department_head" then "Department Head"
    else if role == "group_leader" then "Group Leader"
    else if role == "member" then "Member"
    else role
  }

  // ============= The hierarchy invariant =============

  /** At most one head per (non-null) department. */
  predicate OneHeadPerDepartment(ps: seq<Profile>) {
    forall i, j :: 0 <= i < |ps| && 0 <= j < |ps| && i != j
      && ps[i].role == DepartmentHead && ps[j].role == DepartmentHead && ps[i].departmentId.Some?
      ==> ps[i].departmentId != ps[j].departmentId
  }

  /** At most one leader per (non-null) group. */
  predicate OneLeaderPerGroup(ps: seq<Profile>) {
    forall i, j :: 0 <= i < |ps| && 0 <= j < |ps| && i != j
      && ps[i].role == GroupLeader && ps[j].role == GroupLeader && ps[i].groupId.Some?
      ==> ps[i].groupId != ps[j].groupId
  }

  predicate LeadershipUnique(ps: seq<Profile>) {
    OneHeadPerDepartment(ps) && OneLeaderPerGroup(ps)
  }

  /** Database facts the theorem relies on: ids are a primary key, and a group
      id, being a reference to a group row, is never the empty string. */
  predicate WellFormed(ps: seq<Profile>) {
    UniqueIds(ps) && forall p :: p in ps ==> p.groupId != Some("")
  }

  /** The snapshot shows every current head and leader as stored, and only stored rows. */
  predicate Covers(members: seq<Profile>, ps: seq<Profile>) {
    && (forall m :: m in members ==> m in ps)
    && (forall p :: p in ps && (p.role == DepartmentHead || p.role == GroupLeader) ==> p in members)
  }

  /** The page's snapshot (presidents left out) covers the store it was loaded from. */
  lemma SnapshotCovers(ps: seq<Profile>)
    ensures Covers(Snapshot(ps), ps)
  {
  }

  /** The snapshot the page actually loads, from the first page of profiles,
      covers a store that fits on that page. */
  lemma LoadedSnapshotCovers(ps: seq<Profile>)
    requires |ps| <= DefaultProfileLimit
    ensures Covers(Snapshot(GetAllProfiles(ps, DefaultProfileLimit, 0)), ps)
  {
    var loaded := GetAllProfiles(ps, DefaultProfileLimit, 0);
    FirstPageIsNewest(ps, DefaultProfileLimit);
    assert forall p :: p in loaded <==> p in ps by {
      forall p ensures p in loaded <==> p in ps {
        assert p in loaded <==> p in multiset(loaded);
        assert p in ps <==> p in multiset(ps);
      }
    }
  }

  /** Changing one row keeps department heads unique when the changed row does
      not head a department some other row heads. */
  lemma OneRowChangeKeepsHeads(ps: seq<Profile>, ps': seq<Profile>, k: nat)
    requires |ps'| == |ps| && k < |ps|
    requires forall i :: 0 <= i < |ps| && i != k ==> ps'[i] == ps[i]
    requires OneHeadPerDepartment(ps)
    requires ps'[k].role == DepartmentHead && ps'[k].departmentId.Some? ==>
               forall j :: 0 <= j < |ps| && j != k && ps[j].role == DepartmentHead ==> ps[j].departmentId != ps'[k].departmentId
    ensures OneHeadPerDepartment(ps')
  {
  }

  /** Changing one row keeps group leaders unique when the changed row does
      not lead a group some other row leads. */
  lemma OneRowChangeKeepsLeaders(ps: seq<Profile>, ps': seq<Profile>, k: nat)
    requires |ps'| == |ps| && k < |ps|
    requires forall i :: 0 <= i < |ps| && i != k ==> ps'[i] == ps[i]
    requires OneLeaderPerGroup(ps)
    requires ps'[k].role == GroupLeader && ps'[k].groupId.Some? ==>
               forall j :: 0 <= j < |ps| && j != k && ps[j].role == GroupLeader ==> ps[j].groupId != ps'[k].groupId
    ensures OneLeaderPerGroup(ps')
  {
  }

  /** The store-level step: only the subject's row `k` changes, its group stays,
      and the role it takes is one the checks against a covering snapshot allow. */
  lemma {:induction false} ApprovedRowChangeKeepsLeadershipUnique(
    ps: seq<Profile>, ps': seq<Profile>, k: nat, members: seq<Profile>)
    requires WellFormed(ps) && LeadershipUnique(ps) && Covers(members, ps)
    requires |ps'| == |ps| && k < |ps|
    requires forall i :: 0 <= i < |ps| && i != k ==> ps'[i] == ps[i]
    requires ps'[k].groupId == ps[k].groupId
    requires ps'[k].role == DepartmentHead && ps'[k].departmentId.Some? ==>
               !HeadTaken(members, ps[k], ps'[k].departmentId.value)
    requires ps'[k].role == GroupLeader && HasGroup(ps[k]) ==> !LeaderTaken(members, ps[k])
    ensures LeadershipUnique(ps')
  {
    forall j | 0 <= j < |ps| && j != k && ps[j].role == DepartmentHead
                 && ps'[k].role == DepartmentHead && ps'[k].departmentId.Some?
      ensures ps[j].departmentId != ps'[k].departmentId
    {
      assert ps[j] in members && ps[j].id != ps[k].id;
    }
    OneRowChangeKeepsHeads(ps, ps', k);
    forall j | 0 <= j < |ps| && j != k && ps[j].role == GroupLeader
                 && ps'[k].role == GroupLeader && ps'[k].groupId.Some?
      ensures ps[j].groupId != ps'[k].groupId
    {
      assert ps[j] in members && ps[j].id != ps[k].id;
      assert ps[k] in ps;
    }
    OneRowChangeKeepsLeaders(ps, ps', k);
  }

  /** The key invariant: starting from at most one head per department and at
      most one leader per group, an assignment the page lets through keeps it
      so, provided the snapshot is current. */
  lemma {:induction false} AcceptedAssignmentKeepsLeadershipUnique(
    store: Store, members: seq<Profile>, selected: Option<Profile>, form: RoleForm, env: Env)
    requires WellFormed(store.profiles)
    requires LeadershipUnique(store.profiles)
    requires Covers(members, store.profiles)
    requires selected.Some? ==> selected.value in store.profiles
    ensures LeadershipUnique(HandleAssignRole(store, members, selected, form, env).0.profiles)
  {
    var r := HandleAssignRole(store, members, selected, form, env);
    if r.1.Sent? && !env.faults.updateFails {
      var ps := store.profiles;
      var subject := selected.value;
      var input := Request(subject, form);
      var ps' := AssignRole(store, input, env).0.profiles;
      assert r.0.profiles == ps';
      var k :| 0 <= k < |ps| && ps[k] == subject;
      assert Validate(members, selected, form) == Accept;
      ApprovedRowChangeKeepsLeadershipUnique(ps, ps', k, members);
    }
  }

  /** A department head keeps being accepted as head of their own department:
      the subject's own headship never blocks. */
  lemma OwnHeadshipNeverBlocks(members: seq<Profile>, subject: Profile, form: RoleForm)
    requires form.role == Some(DepartmentHead) && form.departmentId != ""
    requires forall m :: m in members && m.id != subject.id ==>
               !(m.role == DepartmentHead && m.departmentId == Some(form.departmentId))
    ensures Validate(members, Some(subject), form) == Accept
  {
  }

  /** Through this page no president is ever created, changed or displaced:
      the selected member comes from the snapshot and the role from the three
      choices. */
  lemma {:induction false} PresidentsUntouched(
    store: Store, members: seq<Profile>, selected: Option<Profile>, form: RoleForm, env: Env)
    requires UniqueIds(store.profiles)
    requires selected.Some? ==> selected.value in Snapshot(store.profiles)
    requires form.role.Some? ==> form.role.value in RoleChoices
    ensures var ps' := HandleAssignRole(store, members, selected, form, env).0.profiles;
            && |ps'| == |store.profiles|
            && forall i :: 0 <= i < |ps'| ==>
                 (ps'[i].role == President <==> store.profiles[i].role == President)
                 && (store.profiles[i].role == President ==> ps'[i] == store.profiles[i])
  {
    var r := HandleAssignRole(store, members, selected, form, env);
    if r.1.Sent? {
      var subject := selected.value;
      var input := Request(subject, form);
      var ps := store.profiles;
      var ps' := AssignRole(store, input, env).0.profiles;
      assert r.0.profiles == ps';
      assert subject in ps && subject.role != President;
      assert input.newRole != President;
      var k :| 0 <= k < |ps| && ps[k] == subject;
      forall i | 0 <= i < |ps|
        ensures (ps'[i].role == President <==> ps[i].role == President)
        ensures ps[i].role == President ==> ps'[i] == ps[i]
      {
        if ps[i].id == input.userId {
          assert i == k;
        }
      }
    }
  }
}

=== FILE: study_materials.dfy ===
/** The study-materials page (src/pages/StudyMaterialsPage.tsx): the PDF-only
    file picker, the upload request with its sanitised storage name, and who
    is offered the delete button. */
module StudyMaterials {
  import opened Types
  import opened Text
  import opened AuthContext

  const PdfType: string := "application/pdf"

  /** A file picked in the browser. */
  datatype FileInfo = FileInfo(name: string, mimeType: string, size: nat)

  datatype UploadForm = UploadForm(title: string, description: string, isPublic: bool, departmentId: string)

  /** `CreateStudyMaterialInput` without the URL, which the storage service returns. */
  datatype MaterialInput = MaterialInput(
    title: string,
    description: Option<string>,
    fileName: string,
    fileSize: nat,
    isPublic: bool,
    departmentId: Option<string>)

  datatype UploadOutcome = MissingFields | Upload(path: string, record: MaterialInput)

  /** The characters `[a-zA-Z0-9._-]` a storage name keeps. */
  predicate SafeChar(c: char) {
    ('a' <= c <= 'z') || ('A' <= c <= 'Z') || ('0' <= c <= '9') || c == '.' || c == '_' || c == '-'
  }

  /** `name.replace(/[^a-zA-Z0-9._-]/g, '_')`. */
  function Sanitise(name: string): (r: string)
    ensures |r| == |name|
    ensures forall i :: 0 <= i < |r| ==> SafeChar(r[i])
    ensures forall i :: 0 <= i < |r| ==> (SafeChar(name[i]) ==> r[i] == name[i]) && (!SafeChar(name[i]) ==> r[i] == '_')
  {
    if name == [] then []
    else [if SafeChar(name[0]) then name[0] else '_'] + Sanitise(name[1..])
  }

  /** Sanitising a sanitised name changes nothing. */
  lemma SanitiseIdempotent(name: string)
    ensures Sanitise(Sanitise(name)) == Sanitise(name)
  {
  }

  /** A name made of safe characters is its own sanitised form. */
  lemma SanitiseKeepsSafeNames(name: string)
    requires forall i :: 0 <= i < |name| ==> SafeChar(name[i])
    ensures Sanitise(name) == name
  {
  }

  /** `handleFileSelect`: a picked file replaces the selection only if it is a PDF. */
  function SelectFile(current: Option<FileInfo>, picked: Option<FileInfo>): (r: Option<FileInfo>)
    ensures picked.Some? && picked.value.mimeType == PdfType ==> r == picked
    ensures picked.None? || picked.value.mimeType != PdfType ==> r == current
    ensures r.Some? ==> r == current || r.value.mimeType == PdfType
  {
    match picked
    case None => current
    case Some(f) => if f.mimeType != PdfType then current else picked
  }

  /** `handleUpload`: refuse without a file or a title; otherwise store the file
      under `<timestamp>_<sanitised name>` and record the original name. */
  function HandleUpload(selected: Option<FileInfo>, form: UploadForm, timestamp: nat): (r: UploadOutcome)
    ensures r == MissingFields <==> selected.None? || form.title == ""
    ensures r.Upload? ==>
              && r.path == Decimal(timestamp) + "_" + Sanitise(selected.value.name)
              && r.record.fileName == selected.value.name
              && r.record.title == form.title
              && r.record.description == NullIfEmpty(form.description)
              && r.record.departmentId == NullIfEmpty(form.departmentId)
              && r.record.isPublic == form.isPublic
              && r.record.fileSize == selected.value.size
  {
    if selected.None? || form.title == "" then MissingFields
    else
      var f := selected.value;
      Upload(
        Decimal(timestamp) + "_" + Sanitise(f.name),
        MaterialInput(form.title, NullIfEmpty(form.description), f.name, f.size, form.isPublic, NullIfEmpty(form.departmentId)))
  }

  /** Every storage path the page builds consists of safe characters only. */
  lemma UploadPathIsSafe(selected: Option<FileInfo>, form: UploadForm, timestamp: nat)
    requires HandleUpload(selected, form, timestamp).Upload?
    ensures var p := HandleUpload(selected, form, timestamp).path;
            forall i :: 0 <= i < |p| ==> SafeChar(p[i])
  {
    var d := Decimal(timestamp);
    var p := HandleUpload(selected, form, timestamp).path;
    forall i | 0 <= i < |p| ensures SafeChar(p[i]) {
      if i < |d| {
        assert p[i] == d[i] && IsDigit(d[i]);
      }
    }
  }

  /** The delete button: a president always, a department head for materials
      of their own department (two null departments count as equal). */
  predicate CanDelete(profile: Option<Profile>, m: StudyMaterial) {
    IsPresident(profile) || (IsDepartmentHead(profile) && m.departmentId == profile.value.departmentId)
  }

  lemma CanDeleteCases(profile: Option<Profile>, m: StudyMaterial)
    ensures IsPresident(profile) ==> CanDelete(profile, m)
    ensures profile.None? ==> !CanDelete(profile, m)
    ensures IsGroupLeader(profile) || IsMember(profile) ==> !CanDelete(profile, m)
    ensures IsDepartmentHead(profile) ==> (CanDelete(profile, m) <==> m.departmentId == profile.value.departmentId)
  {
  }
}

=== FILE: text.dfy ===
/** ASCII case mapping and substring search, the string operations the pages
    apply (`toLowerCase`, `toUpperCase`, `includes`). Case mapping outside
    ASCII is not modelled. */
module Text {

  predicate IsUpperAscii(c: char) {
    'A' <= c <= 'Z'
  }

  predicate IsLowerAscii(c: char) {
    'a' <= c <= 'z'
  }

  function LowerChar(c: char): (r: char)
    ensures !IsUpperAscii(r)
    ensures !IsUpperAscii(c) ==> r == c
  {
    if IsUpperAscii(c) then (c as int + 32) as char else c
  }

  function UpperChar(c: char): (r: char)
    ensures !IsLowerAscii(r)
    ensures !IsLowerAscii(c) ==> r == c
  {
    if IsLowerAscii(c) then (c as int - 32) as char else c
  }

  function Lower(s: string): (r: string)
    ensures |r| == |s|
    ensures forall i :: 0 <= i < |s| ==> r[i] == LowerChar(s[i])
  {
    if s == [] then [] else [LowerChar(s[0])] + Lower(s[1..])
  }

  function Upper(s: string): (r: string)
    ensures |r| == |s|
    ensures forall i :: 0 <= i < |s| ==> r[i] == UpperChar(s[i])
  {
    if s == [] then [] else [UpperChar(s[0])] + Upper(s[1..])
  }

  /** Lower-casing twice is lower-casing once. */
  lemma LowerIdempotent(s: string)
    ensures Lower(Lower(s)) == Lower(s)
  {
  }

  /** `needle` occurs in `hay` starting at index `i`. */
  predicate OccursAt(hay: string, needle: string, i: nat) {
    i + |needle| <= |hay| && hay[i..i + |needle|] == needle
  }

  /** `hay.includes(needle)`, by scanning for a prefix match at each position. */
  function Contains(hay: string, needle: string): bool
    decreases |hay|
  {
    if |needle| <= |hay| && hay[..|needle|] == needle then true
    else if hay == [] then false
    else Contains(hay[1..], needle)
  }

  /** The scan finds `needle` exactly when it occurs at some index. */
  lemma {:induction false} ContainsIffOccurs(hay: string, needle: string)
    ensures Contains(hay, needle) <==> exists i: nat :: OccursAt(hay, needle, i)
    decreases |hay|
  {
    if |needle| <= |hay| && hay[..|needle|] == needle {
      assert OccursAt(hay, needle, 0);
    } else if hay == [] {
      forall i: nat ensures !OccursAt(hay, needle, i) {
      }
    } else {
      ContainsIffOccurs(hay[1..], needle);
      if Contains(hay[1..], needle) {
        var i: nat :| OccursAt(hay[1..], needle, i);
        assert hay[1..][i..i + |needle|] == hay[i + 1..i + 1 + |needle|];
        assert OccursAt(hay, needle, i + 1);
      } else {
        forall i: nat | OccursAt(hay, needle, i)
          ensures false
        {
          if i > 0 {
            assert hay[1..][i - 1..i - 1 + |needle|] == hay[i..i + |needle|];
            assert OccursAt(hay[1..], needle, i - 1);
          }
        }
      }
    }
  }

  /** Every string contains the empty string. */
  lemma ContainsEmpty(hay: string)
    ensures Contains(hay, "")
  {
  }

  predicate IsDigit(c: char) {
    '0' <= c <= '9'
  }

  function DigitChar(d: nat): (c: char)
    requires d < 10
    ensures IsDigit(c)
  {
    ('0' as int + d) as char
  }

  /** The decimal spelling of a natural number, as a template literal prints it. */
  function Decimal(n: nat): (s: string)
    ensures |s| >= 1
    ensures forall i :: 0 <= i < |s| ==> IsDigit(s[i])
  {
    if n < 10 then [DigitChar(n)] else Decimal(n / 10) + [DigitChar(n % 10)]
  }

  /** The number a string of digits denotes. */
  function DecimalValue(s: string): nat
    requires forall i :: 0 <= i < |s| ==> IsDigit(s[i])
  {
    if s == [] then 0
    else
      assert IsDigit(s[|s| - 1]);
      10 * DecimalValue(s[..|s| - 1]) + (s[|s| - 1] as int - '0' as int)
  }

  /** Reading the spelling back gives the number: distinct numbers are spelled differently. */
  lemma {:induction false} DecimalRoundTrip(n: nat)
    ensures DecimalValue(Decimal(n)) == n
  {
    if n >= 10 {
      DecimalRoundTrip(n / 10);
      var s := Decimal(n);
      assert s[..|s| - 1] == Decimal(n / 10);
    }
  }
}

=== FILE: types.dfy ===
/** Records of the organisation's database (profiles, scores, role-change logs,
    leaderboard rows, departments, study materials) and the conversions between
    a nullable column and the empty-string convention the forms use. */
module Types {

  /** A nullable value: `None` stands for SQL NULL / JavaScript null or undefined. */
  datatype Option<T> = None | Some(value: T) {
    function GetOr(default: T): T {
      match this
      case Some(v) => v
      case None => default
    }
  }

  /** The four roles of the hierarchy, president at the top. */
  datatype UserRole = President | DepartmentHead | GroupLeader | Member

  /** The database spelling of a role. */
  function RoleName(r: UserRole): string {
    match r
    case President => "president"
    case DepartmentHead => "department_head"
    case GroupLeader => "group_leader"
    case Member => "member"
  }

  /** Reads a role back from its database spelling; any other string is no role. */
  function ParseRole(s: string): (r: Option<UserRole>)
    ensures r.Some? ==> RoleName(r.value) == s
    ensures r.None? ==> forall role: UserRole :: RoleName(role) != s
  {
    if s == "president" then Some(President)
    else if s == "department_head" then Some(DepartmentHead)
    else if s == "group_leader" then Some(GroupLeader)
    else if s == "member" then Some(Member)
    else None
  }

  lemma ParseRoleName(r: UserRole)
    ensures ParseRole(RoleName(r)) == Some(r)
  {
  }

  /** The display label every badge in the application shows for a role. */
  function RoleLabel(r: UserRole): string {
    match r
    case President => "President"
    case DepartmentHead => "Department Head"
    case GroupLeader => "Group Leader"
    case Member => "Member"
  }

  /** A member's profile row. `avatar_url` and `updated_at` are not modelled. */
  datatype Profile = Profile(
    id: string,
    username: string,
    fullName: Option<string>,
    email: Option<string>,
    role: UserRole,
    departmentId: Option<string>,
    groupId: Option<string>,
    groupChangeCount: nat,
    createdAt: int)

  /** A score awarded to a member in a department; negative values are penalties. */
  datatype Score = Score(
    id: string,
    userId: string,
    departmentId: string,
    score: int,
    reason: Option<string>,
    createdBy: Option<string>,
    createdAt: int,
    updatedAt: int)

  /** One entry of the append-only role-change history. */
  datatype RoleChangeLog = RoleChangeLog(
    id: string,
    userId: string,
    oldRole: Option<UserRole>,
    newRole: UserRole,
    oldDepartmentId: Option<string>,
    newDepartmentId: Option<string>,
    changedBy: Option<string>,
    reason: Option<string>,
    createdAt: int)

  /** A row of the leaderboard view; totals and ranks are computed by the database. */
  datatype LeaderboardEntry = LeaderboardEntry(
    id: string,
    username: string,
    fullName: Option<string>,
    groupId: Option<string>,
    groupName: Option<string>,
    totalScore: int,
    rank: int)

  datatype Department = Department(id: string, name: string, displayName: string)

  /** The columns of a study material the pages decide on. */
  datatype StudyMaterial = StudyMaterial(id: string, title: string, departmentId: Option<string>, createdAt: int)

  /** `s || null`: the empty string becomes null. */
  function NullIfEmpty(s: string): (r: Option<string>)
    ensures r.None? <==> s == ""
    ensures r.Some? ==> r.value == s
  {
    if s == "" then None else Some(s)
  }

  /** `x || ''`: null becomes the empty string. */
  function EmptyIfNull(o: Option<string>): (r: string)
    ensures o.Some? ==> r == o.value
    ensures o.None? ==> r == ""
  {
    o.GetOr("")
  }

  /** Loading a form field and sending it back loses nothing, except that a
      stored empty string comes back as null. */
  lemma FormFieldRoundTrip(o: Option<string>, s: string)
    ensures o != Some("") ==> NullIfEmpty(EmptyIfNull(o)) == o
    ensures EmptyIfNull(NullIfEmpty(s)) == s
  {
  }
}
